=== FILE: README.md ===
# tor2web configuration, modelled in Dafny

This project models tor2web's configuration object, `Config` in
`tor2web/utils/config.py`. It covers the following, with the properties each
part promises proved about the model:

- How a `Config` is built:
  - the built-in defaults, with the command-line options folded in;
  - the options of the `main` section of the configuration file, each
    coerced from text to a typed value and stored over the defaults in file
    order. An option named `_section`, `_parser`, `parse` or `splitlist`
    changes how the options after it are read, and one named
    `verify_config_is_sane` or `verify_values` breaks the final check, because
    an attribute stored in the instance hides the method of that name;
  - the rejection of header settings;
  - `verify_config_is_sane`;
  - the default certificate paths under `datadir`.
- How option text becomes a value (`parse`). The stripped text is tried, in
  order, as a decimal integer, a boolean, `None`, a bracketed list and a
  plain string.
- The list tokeniser: `splitlist` and the regular expression
  `\s*("[^"]*"|.*?)\s*,` it runs with `findall`. The expression is modelled
  exactly, as a matcher over the rest of the text.
- `verify_values` and `verify_config_is_sane`, including Python's
  `True == 1`.
- The attribute protocol:
  - a setting never stored reaches `__getattr__` and reads as `None`;
  - an assignment always lands in the attribute dictionary;
  - a public assignment is also mirrored into the option parser, which takes
    only strings.
- `t2w_file_path`, with the filesystem given as the set of paths that exist.

Modules:

- `Wrappers`: `Option`, `Result` and `Outcome`.
- `Text`: ASCII whitespace, `strip`, `lower`, digits and decimals.
- `Values`: the values a setting holds, Python `==`, truthiness and
  `type()` names.
- `ListSyntax`: `listpattern`, `findall` and `splitlist`.
- `Coercion`: `parse`, and a canonical rendering that parses back.
- `Validation`: `verify_values` and `verify_config_is_sane`.
- `Paths`: POSIX `os.path.join` and the data-file lookup.
- `Settings`: `__getattr__`, `__setattr__` and `t2w_file_path`.
- `Startup`: the defaults, `load()` and the certificate defaults.

Behaviours of the code that are easy to misread:

- The certificate paths are composed with `os.path.join(datadir, "certs/…")`,
  not by plain concatenation.
- The model reads an all-digit text of any length as an `Int`; see
  `Coercion.Classify` under "## Left out".
- `proto` is derived once, from the built-in transport `BOTH`, before the
  file is read. A file that sets `transport = HTTP` but not `proto` still
  yields `https://`.
- The option parser files options under lower-cased names and takes only
  string values. An assignment of anything else to a public name raises
  `TypeError` after the dictionary has been updated, so the parser is left
  holding the old text.

## Model

| member | source | states |
|---|---|---|
| `ListSyntax.MatchHere` | tor2web/utils/config.py:24 | a match of `listpattern` consumes at least one character, and its group comes from one of the two alternatives |
| `ListSyntax.FindAllShapes` | tor2web/utils/config.py:24 | every group `findall` returns is either a quoted group with no inner `"` or a bare run that is trimmed and has no comma or line feed |
| `ListSyntax.MatchPlain` | tor2web/utils/config.py:24 | an unquoted element followed by a comma matches as the element stripped of whitespace, consuming the element and the comma |
| `ListSyntax.MatchQuoted` | tor2web/utils/config.py:24 | a double-quoted element, after optional whitespace and followed by optional whitespace and a comma, matches as the quoted text including its quotes, consuming everything through the comma |
| `ListSyntax.FindAllPlain` | tor2web/utils/config.py:24 | on text without quotes or line feeds, `findall` over `s + ","` is the comma-separated pieces of `s`, each stripped |
| `ListSyntax.FindAllQuotedJoin` | tor2web/utils/config.py:24 | on comma-joined quoted elements, `findall` returns exactly the quoted elements, in order |
| `ListSyntax.RStripCommas` | tor2web/utils/config.py:188 | `rstrip(',')` keeps a prefix that does not end in a comma and removes only commas |
| `ListSyntax.SplitList` | tor2web/utils/config.py:186-188 | `splitlist` yields at least one element and one element per captured group: the group with its surrounding quotes removed when it has them |
| `ListSyntax.SplitListShapes` | tor2web/utils/config.py:186-188 | every element has no `"` or else no comma and no line feed; an element kept as captured is trimmed and has no comma |
| `ListSyntax.SplitListPlain` | tor2web/utils/config.py:186-188 | without quotes or line feeds, `splitlist` splits at commas after dropping trailing commas, and strips each piece |
| `ListSyntax.SplitListRoundTrip` | tor2web/utils/config.py:186-188 | splitting a comma-joined list of quoted, quote-free elements gives back the elements |
| `ListSyntax.FindAllClosed` | tor2web/utils/config.py:24 | on any line of plain and quoted elements, each closed by a comma, `findall` returns each plain element stripped and each quoted element with its quotes, in order |
| `ListSyntax.SplitListElements` | tor2web/utils/config.py:186-188 | any comma-joined line of plain and quoted elements whose last element is not empty, in any mix and number, splits into the stripped plain elements and the unquoted texts; a quoted element may hold commas and have whitespace before and after its quotes |
| `ListSyntax.SplitListEmptyInterior` | tor2web/utils/config.py:186-188 | the empty list literal `[]` yields the one-element list `['']` |
| `Text.Strip` | tor2web/utils/config.py:195 | `strip()` returns the trimmed middle of the text; only whitespace is removed, on either side |
| `Text.StripIdempotent` | tor2web/utils/config.py:195 | stripping twice is stripping once |
| `Text.LeadingZeroIgnored` | tor2web/utils/config.py:197-198 | `int()` of a digit string ignores a leading zero |
| `Coercion.Interior` | tor2web/utils/config.py:203-204 | `value[1:-1]` of a bracketed text is what lies between the two brackets |
| `Coercion.Classify` | tor2web/utils/config.py:197-206 | the stripped text is an int exactly when it is all digits; a bool exactly when it is `true`/`false` in any case; `None` exactly when it is empty or `none`; a list exactly when it is bracketed; otherwise the non-empty text itself |
| `Coercion.Parse` | tor2web/utils/config.py:190-210 | a missing option reads as `None`; a present one is coerced after stripping |
| `Coercion.CoerceIgnoresPadding` | tor2web/utils/config.py:195 | whitespace around an option's text never changes its value |
| `Coercion.ParseRender` | tor2web/utils/config.py:190-206 | every non-negative int, bool, `None`, plain trimmed string and non-empty list of quote-free strings parses back from its canonical text |
| `Coercion.LeadingZerosRead` | tor2web/utils/config.py:197-198 | `"0" + digits` and `digits` read as the same setting |
| `Coercion.CoerceBracketed` | tor2web/utils/config.py:203-204 | trimmed text between brackets is the list `splitlist` makes of its interior |
| `Coercion.LeadingZerosExample` | tor2web/utils/config.py:197-198 | `007` reads as the integer 7 |
| `Coercion.EmptyListExample` | tor2web/utils/config.py:203-204 | `[]` reads as the list holding one empty string |
| `Coercion.DigitListExample` | tor2web/utils/config.py:203-204 | `[1,2]` reads as the list of the strings `1` and `2`; elements are not coerced further |
| `Coercion.QuotedCommaExample` | tor2web/utils/config.py:186-188 | `[a, "b,c", d]` reads as `a`, `b,c` and `d`: a quoted element keeps its comma |
| `Values.PyEqCharacterization` | tor2web/utils/config.py:184 | Python `==` on settings is structural equality, plus `True == 1` and `False == 0` |
| `Validation.Contains` | tor2web/utils/config.py:184 | `value in allowed` holds exactly when some allowed value is `==` to it |
| `Validation.VerifyValues` | tor2web/utils/config.py:175-184 | an unset key passes; a set key passes exactly when its value is `==` to an allowed one, and otherwise fails naming the key, value, type and allowed list |
| `Validation.VerifyAll` | tor2web/utils/config.py:160-170 | the checks pass exactly when each passes; a failure is that of the first failing check |
| `Validation.FlagsAccept` | tor2web/utils/config.py:163-169 | a switch checked against `[True, False]` accepts exactly the booleans and the integers 0 and 1 |
| `Validation.VerifyConfigIsSaneCorrect` | tor2web/utils/config.py:160-170 | `verify_config_is_sane` passes exactly when the transport, the seven switches and `proto` are unset or hold allowed values |
| `Validation.VerifyAllLocal` | tor2web/utils/config.py:160-170 | the verdict depends only on the checked keys |
| `Paths.Join` | tor2web/utils/config.py:230-231 | an absolute second part replaces the first; otherwise the result starts with the first part and ends with the second, with exactly one `/` between them when the first is non-empty and does not end in `/`, and nothing else |
| `Paths.JoinAssociative` | tor2web/utils/config.py:230 | `join(join(a, b), c) == join(a, join(b, c))` |
| `Paths.JoinSetting` | tor2web/utils/config.py:230-231 | joining onto a directory setting succeeds exactly when it holds a string, and otherwise raises naming the setting |
| `Paths.ResolveAsset` | tor2web/utils/config.py:229-238 | both candidate paths are composed first; the local one is answered when it exists, the system-wide one when only it exists, and the local one otherwise; the answer exists exactly when one of the two exists |
| `Paths.ResolveAbsolute` | tor2web/utils/config.py:229-238 | an absolute path is answered unchanged |
| `Paths.ResolveSameDir` | tor2web/utils/config.py:229-238 | with both directories equal the answer is the plain join |
| `Settings.GetAttr` | tor2web/utils/config.py:212-213 | a stored setting reads as its value and a setting never stored as `None` |
| `Settings.SetAttr` | tor2web/utils/config.py:215-227 | the dictionary is always updated; a private name touches nothing else; a public non-string raises `TypeError` and a refused name raises `NameError`, both with the parser unchanged; otherwise the parser holds the text under the lower-cased name |
| `Settings.GetAfterSet` | tor2web/utils/config.py:212-216 | reading right after assigning gives the assigned value, even when the assignment raised |
| `Settings.SetLeavesOthers` | tor2web/utils/config.py:215-216 | an assignment changes no other attribute |
| `Settings.SetTwice` | tor2web/utils/config.py:215-227 | two successful assignments to one name equal the second alone |
| `Settings.SetKeepsMirror` | tor2web/utils/config.py:215-227 | for a lower-case name, an assignment keeps every option the parser holds backed by an attribute |
| `Settings.SetMirrorsText` | tor2web/utils/config.py:222-224 | an accepted public string assignment leaves exactly that text in the parser |
| `Settings.FilePath` | tor2web/utils/config.py:229-238 | `t2w_file_path` fails exactly when a directory setting is not a string; otherwise it answers the join onto `datadir` when that exists, the join onto `sysdatadir` when only that exists, and the join onto `datadir` when neither does |
| `Startup.ProtoFor` | tor2web/utils/config.py:107 | the prefix is `http://` exactly for transport `HTTP`, and `https://` otherwise |
| `Startup.DefaultsSane` | tor2web/utils/config.py:49-108 | the built-in defaults pass `verify_config_is_sane` |
| `Startup.Merge` | tor2web/utils/config.py:143-144 | after reading the section, the settings are the defaults plus the section's names, and a setting the section does not name is unchanged |
| `Startup.MergeEntry` | tor2web/utils/config.py:143-144 | with distinct names, each option ends up holding its own coerced text |
| `Startup.ParserOptions` | tor2web/utils/config.py:141-143 | the parser holds an option for exactly the names of the section |
| `Startup.ParserOptionsEntry` | tor2web/utils/config.py:141-143 | with distinct names, the parser holds each option's own raw text |
| `Startup.DefaultsOrdinary` | tor2web/utils/config.py:34-35 | the built-in dictionary starts with `_section` at `main`, the option parser in place, and no setting hiding `parse`, `splitlist`, `verify_config_is_sane` or `verify_values` |
| `Startup.Lookup` | tor2web/utils/config.py:192 | a section answers `get` for a name exactly when one of its options has that name, and then with that option's text |
| `Startup.ParseOption` | tor2web/utils/config.py:190-210 | `parse` raises when a setting hides `parse` or replaces `_parser`, or when `_section` is not `main`, `DEFAULT` or a section of the file; a setting hiding `splitlist` makes list text raise and nothing else; otherwise it returns a value, and with ordinary attributes that is the option's own coerced text |
| `Startup.ReadSection` | tor2web/utils/config.py:141-145 | reading `main` option by option, when no parse raises, leaves the dictionary's keys plus the section's names and keeps every setting the section does not name; with a replaced parser or a hidden `parse` any option raises |
| `Startup.ReadPlain` | tor2web/utils/config.py:141-145 | when no option but the last sets `_parser`, `parse` or `splitlist` or moves `_section` off `main`, reading the section is laying each option's coerced text over the dictionary |
| `Startup.ReadStops` | tor2web/utils/config.py:141-155 | the option after the first one that replaces `_parser`, hides `parse`, hides `splitlist` before list text, or moves `_section` to a section `get` cannot reach raises, so the read fails |
| `Startup.ParseBroken` | tor2web/utils/config.py:190-204 | once a stored option replaces `_parser`, hides `parse`, hides `splitlist` before list text or names an unreachable section, the next option's `parse` raises |
| `Startup.ReadEntry` | tor2web/utils/config.py:141-145 | with distinct names, every option up to the first steering one holds its own coerced text after a successful read |
| `Startup.ReadRedirected` | tor2web/utils/config.py:141-145 | after `_section = s`, a successful read implies `s` is a section of the file or `DEFAULT`, and the next option holds its text from `s`, or `None` for `DEFAULT` |
| `Startup.FillCerts` | tor2web/utils/config.py:117-127 | each unset TLS setting gets its file joined onto `datadir`, a set one is kept, everything else is unchanged; it fails exactly when some TLS setting is unset and `datadir` is not a string |
| `Startup.CertDefaults` | tor2web/utils/config.py:117-127 | the same, for the four TLS settings of the constructor |
| `Startup.CertFilled` | tor2web/utils/config.py:117-127 | after the certificate step no TLS setting is `None` |
| `Startup.CheckLoaded` | tor2web/utils/config.py:146-184 | truthy extra headers make the file invalid; otherwise a setting hiding `verify_config_is_sane` or `verify_values` raises out of `load()` naming it; otherwise the dictionary is accepted exactly when `verify_config_is_sane` passes, and a failure is raised as it is |
| `Startup.Load` | tor2web/utils/config.py:129-158 | an inaccessible file fails as unopenable; a malformed file, a missing `main` section or a repeated option fails as invalid; otherwise a read of `main` that raises fails as invalid and a successful one is checked, where a setting hiding a check method raises; when no option before the last steers, the read is the section merged over the dictionary; loading never removes a setting |
| `Startup.Build` | tor2web/utils/config.py:115-127 | a `load()` failure is the result; after a successful `load()` the result is the certificate step on the loaded dictionary, with the parser untouched, and it succeeds exactly when that step does |
| `Startup.Construct` | tor2web/utils/config.py:129-156 | building from the defaults fails as unopenable for an inaccessible file and as invalid for an unreadable one |
| `Startup.LoadChecked` | tor2web/utils/config.py:158 | a dictionary `load()` accepts passes `verify_config_is_sane` |
| `Startup.CertsKeepSane` | tor2web/utils/config.py:117-127 | the certificate step touches no checked setting, so it keeps a sane dictionary sane |
| `Startup.BuildSane` | tor2web/utils/config.py:115-158 | every configuration that is built passes `verify_config_is_sane`, whatever the built-in settings were |
| `Startup.BuildCerts` | tor2web/utils/config.py:115-127 | in a built configuration every TLS setting is set, and one that `load()` left unset holds its file under `datadir` |
| `Startup.BuildReadsFile` | tor2web/utils/config.py:143-144 | every non-TLS option of the section up to the first steering one holds its coerced text in the built configuration |
| `Startup.BuildKeepsSetting` | tor2web/utils/config.py:49-115 | a non-TLS setting the section does not name keeps its built-in value |
| `Startup.BuildMirrors` | tor2web/utils/config.py:140-144 | in a built configuration every parser option is an attribute, each option of `main` holds its raw text in the parser, and no name is refused |
| `Startup.BuildRejectsHeaders` | tor2web/utils/config.py:146-156 | a section that sets `extra_http_response_headers` to anything truthy, with no steering option before it, is an invalid configuration, even one that repeats an option |
| `Startup.LoadForeignSection` | tor2web/utils/config.py:141-155 | `_section = other` followed by another option, in a file without a section `other`, is an invalid configuration |
| `Startup.ConstructProto` | tor2web/utils/config.py:107 | without a `proto` option, the built configuration has `https://`, whatever transport the file sets |
| `Startup.LoadEmpty` | tor2web/utils/config.py:141-158 | an empty `main` section leaves a dictionary that passes the checks, and hides no check method, as it was |
| `Startup.LoadHiddenParse` | tor2web/utils/config.py:141-155 | `parse = 1` followed by another option is an invalid configuration |
| `Startup.LoadHiddenSplitList` | tor2web/utils/config.py:141-155 | `splitlist = x` followed by an option with bracketed text is an invalid configuration |
| `Startup.LoadHiddenCheck` | tor2web/utils/config.py:141-160 | a lone option `verify_config_is_sane` makes `load()` raise outside its `try`, naming the hidden method |
| `Startup.ConstructEmptySection` | tor2web/utils/config.py:115-118 | an empty `main` section builds, and `ssl_key` becomes `/home/tor2web/certs/tor2web-key.pem` |

## Left out

- The command line (`OptionParser`, `sys.argv`) is not modelled. Its options
  are the `LaunchOptions` parameter.
- The development data directory next to the program (lines 110-113) depends
  on the filesystem. It is the `devData` parameter.
- The access checks on the configuration file and `exit(1)` (lines 130-138)
  are a flag on `ConfigFile`, and an inaccessible file gives the
  `CannotOpen` result. The messages printed are not modelled.
- The INI file is not parsed:
  - configparser's reading of the file stands for the `FileContent` value,
    either `Malformed` or the file's sections by name, each holding its
    options in file order;
  - interpolation and continuation lines are not modelled;
  - the file's `DEFAULT` section is taken to be empty, so it adds no options
    to `main`, and after `_section = DEFAULT` every option reads as `None`;
  - duplicate options (configparser's strict mode) are rejected by `Load`.
- `Startup.Load`: options named `_section`, `_parser`, `parse` and
  `splitlist` are read into the dictionary and steer the options after them,
  but the parser the model returns is still the one read from the file,
  holding `main`. Other names of `Config` methods (`load`, `t2w_file_path`)
  are not called while loading, so storing them changes nothing the model
  follows. The `TypeError` from a hidden `verify_config_is_sane` or
  `verify_values` escapes `load()` and is the `Uncallable` error.
- `Settings.GetAttr`: reads settings only. A name the class defines
  (`parse`, `load`, `splitlist`, `verify_values`, `verify_config_is_sane`,
  `t2w_file_path`) reads as the bound method unless the dictionary holds it,
  because `__getattr__` runs only when normal lookup fails. Methods are not
  values of the model.
- `Coercion.Classify`: an all-digit text of any length reads as `Int`. Since
  Python 3.11, `int()` refuses a text of more than 4300 digits by default
  (`sys.int_info.default_max_str_digits`) with `ValueError`, which `load()`
  reports as an invalid file. The limit depends on the interpreter's version
  and settings, so it is not modelled.
- `Settings.SetAttr`: the parser is always written under `main` with an
  intact parser. The source writes under the current `_section` (the
  defaults for `DEFAULT` or an empty name, `NoSectionError` for a missing
  section), and a replaced `_parser` raises `AttributeError`. Interpolation
  checks on the assigned text are not modelled either: configparser raises
  `ValueError` for a stray `%`, after the dictionary has been updated.
- The text of each exception message is not modelled. Each failure is a
  kind that carries the data the message is built from:
  - `StartupError`: `CannotOpen` and `InvalidConfig` with the file path;
    `Insane` with the key, value, type name and allowed list of the
    failed check (`ValidationError`); `BadDataDir` with the `PathError`
    (`NotAString`: the setting and its value); and `Uncallable` with the
    hidden method's name;
  - `SetError` for assignments: `NameError` with the name, and `TypeError`
    (`OptionTypeError`) with the name and the value assigned.
- The ASCII re-encoding of `extra_http_response_headers` (lines 147-153) is
  not modelled. No value a file can produce has `items()`, so a truthy value
  always raises inside the `try` and is modelled as `InvalidConfig`.
- Strings are ASCII only:
  - whitespace, `lower()` and `isdigit()` follow Python on ASCII characters;
  - Unicode digits, case mappings and whitespace are not modelled.
- `verify_values` is an `assert`, which is skipped under `python -O`. The
  model always checks.
- `_parser` is the `parser` field of `Config`. A `_parser` key in the
  dictionary means the parser was replaced.
- The `Storage` base class is not part of this model, and nor is
  `NoSectionError` from `set()`.
- `os.path.join` is modelled as POSIX `posixpath.join` with two arguments.
- `Settings.Parser`: whether configparser refuses an option name is a set in
  the model (`refused`), because configparser's internals are not modelled.
  A configuration that `Build` produces refuses no name.

=== FILE: coercion.dfy ===
/** `Config.parse`: how the raw text of a configuration option becomes a typed
    value. The text is stripped and then tried, in this order, as a decimal
    integer, a boolean, `None`, a bracketed list and finally a plain string. */
module Coercion {
  import opened Wrappers
  import opened Text
  import opened Values
  import opened ListSyntax

  /** Text that reads as a list literal: starts with '[' and ends with ']'
      (which needs at least two characters). */
  predicate Bracketed(s: string) {
    |s| > 0 && s[0] == '[' && s[|s| - 1] == ']'
  }

  /** What lies between the brackets of a list literal (Python's `s[1:-1]`). */
  function Interior(s: string): (r: string)
    requires Bracketed(s)
    ensures |r| + 2 == |s| && s == "[" + r + "]"
  {
    s[1..|s| - 1]
  }

  predicate IsBoolWord(s: string) {
    Lower(s) == "true" || Lower(s) == "false"
  }

  predicate IsNoneWord(s: string) {
    s == "" || Lower(s) == "none"
  }

  /** Stripped text that none of the earlier coercions accepts and that is
      therefore kept as a string. */
  predicate PlainText(s: string) {
    !IsDigits(s) && !IsBoolWord(s) && !IsNoneWord(s) && !Bracketed(s)
  }

  /** The value stripped option text stands for: each coercion applies exactly
      when the earlier ones do not. */
  function Classify(s: string): (v: Value)
    ensures v.Int? <==> IsDigits(s)
    ensures v.Int? ==> v.i == DecimalValue(s) && v.i >= 0
    ensures v.Bool? <==> IsBoolWord(s)
    ensures v.Bool? ==> (v.b <==> Lower(s) == "true")
    ensures v.Null? <==> IsNoneWord(s)
    ensures v.List? <==> Bracketed(s)
    ensures v.List? ==> v.items == SplitList(Interior(s)) && |v.items| >= 1
    ensures v.Str? <==> PlainText(s)
    ensures v.Str? ==> v.s == s && s != ""
  {
    if IsDigits(s) then Int(DecimalValue(s))
    else if IsBoolWord(s) then Bool(Lower(s) == "true")
    else if IsNoneWord(s) then Null
    else if s[0] == '[' && s[|s| - 1] == ']' then List(SplitList(s[1..|s| - 1]))
    else Str(s)
  }

  /** `parse` on the text of an option that is present: the text is stripped
      of surrounding whitespace first. */
  function Coerce(raw: string): Value {
    Classify(Strip(raw))
  }

  /** `parse(name)`: an option missing from the file reads as `None`. */
  function Parse(raw: Option<string>): (v: Value)
    ensures raw.None? ==> v == Null
    ensures raw.Some? ==> v == Coerce(raw.value)
  {
    match raw
    case None => Null
    case Some(text) => Coerce(text)
  }

  /** Whitespace around the text of an option never changes its value. */
  lemma CoerceIgnoresPadding(w1: string, s: string, w2: string)
    requires AllSpace(w1) && AllSpace(w2)
    ensures Coerce(w1 + s + w2) == Coerce(s)
  {
    StripAround(w1, s, w2);
  }

  /** A value whose canonical text reads back as the same value: non-negative
      integers, booleans, `None`, strings that read as plain text, and
      non-empty lists of strings without double quotes. */
  predicate Canonical(v: Value) {
    match v
    case Int(i) => i >= 0
    case Bool(_) => true
    case Null => true
    case Str(s) => PlainText(s) && Trimmed(s)
    case List(xs) => |xs| > 0 && forall i :: 0 <= i < |xs| ==> '"' !in xs[i]
  }

  /** The text an administrator writes in the configuration file for a value:
      decimal digits, `True`/`False`, `None`, the string itself, or a bracketed
      list of double-quoted elements. */
  function Render(v: Value): (r: string)
    requires Canonical(v)
    ensures Trimmed(r) && r != ""
  {
    match v
    case Int(i) => Decimal(i)
    case Bool(b) => if b then "True" else "False"
    case Null => "None"
    case Str(s) => s
    case List(xs) => "[" + ListBody(xs) + "]"
  }

  lemma RenderInt(i: nat)
    ensures Coerce(Render(Int(i))) == Int(i)
  {
    StripTrimmed(Decimal(i));
  }

  lemma RenderBool(b: bool)
    ensures Coerce(Render(Bool(b))) == Bool(b)
  {
    var r := Render(Bool(b));
    StripTrimmed(r);
    assert !IsDigit(r[0]);
    if b {
      assert Lower(r) == "true";
    } else {
      assert Lower(r) == "false";
    }
  }

  lemma RenderNull()
    ensures Coerce(Render(Null)) == Null
  {
    var r := Render(Null);
    StripTrimmed(r);
    assert !IsDigit(r[0]);
    assert Lower(r) == "none";
  }

  lemma RenderStr(s: string)
    requires PlainText(s) && Trimmed(s)
    ensures Coerce(Render(Str(s))) == Str(s)
  {
    StripTrimmed(s);
  }

  /** Text that starts with neither a digit nor a letter is neither an
      integer nor one of the words `true`, `false` and `none`. */
  lemma NotDigitsNorWord(s: string)
    requires |s| > 0 && !IsDigit(s[0]) && !('a' <= LowerChar(s[0]) <= 'z')
    ensures !IsDigits(s) && !IsBoolWord(s) && !IsNoneWord(s)
  {
    assert Lower(s)[0] == LowerChar(s[0]);
  }

  lemma RenderList(xs: seq<string>)
    requires |xs| > 0 && forall i :: 0 <= i < |xs| ==> '"' !in xs[i]
    ensures Coerce(Render(List(xs))) == List(xs)
  {
    var r := Render(List(xs));
    StripTrimmed(r);
    NotDigitsNorWord(r);
    assert Interior(r) == ListBody(xs);
    SplitListRoundTrip(xs);
  }

  /** Every canonical value survives being written out and parsed back. */
  lemma ParseRender(v: Value)
    requires Canonical(v)
    ensures Parse(Some(Render(v))) == v
  {
    match v
    case Int(i) => RenderInt(i);
    case Bool(b) => RenderBool(b);
    case Null => RenderNull();
    case Str(s) => RenderStr(s);
    case List(xs) => RenderList(xs);
  }

  /** Leading zeros are read away: "007" and "7" are the same setting. */
  lemma LeadingZerosRead(s: string)
    requires IsDigits(s)
    ensures Coerce("0" + s) == Coerce(s)
  {
    LeadingZeroIgnored(s);
    StripTrimmed(s);
    StripTrimmed("0" + s);
  }

  /** `007` is the integer 7. */
  lemma LeadingZerosExample()
    ensures Coerce("007") == Int(7)
  {
    StripTrimmed("007");
    assert DecimalValue("007") == 7 by {
      assert "007"[..2] == "00" && "00"[..1] == "0";
    }
  }

  /** `[]` is the list holding one empty string. */
  lemma EmptyListExample()
    ensures Coerce("[]") == List([""])
  {
    StripTrimmed("[]");
    assert Interior("[]") == "";
    SplitListEmptyInterior();
  }

  /** Trimmed text between brackets is read as the list `splitlist` makes of
      its interior. */
  lemma CoerceBracketed(t: string)
    requires Trimmed(t) && Bracketed(t)
    ensures Coerce(t) == List(SplitList(Interior(t)))
  {
    StripTrimmed(t);
    NotDigitsNorWord(t);
  }

  /** `[1,2]` is the list of the strings `1` and `2`: list elements are not
      coerced further. */
  lemma DigitListExample()
    ensures Coerce("[1,2]") == List(["1", "2"])
  {
    CoerceBracketed("[1,2]");
    DigitListSplit();
  }

  lemma DigitListSplit()
    ensures SplitList(Interior("[1,2]")) == ["1", "2"]
  {
    var line := "1,2";
    assert Interior("[1,2]") == line;
    assert RStripCommas(line) == line;
    SplitListPlain(line);
    DigitListPieces();
    StripTrimmed("1");
    StripTrimmed("2");
  }

  lemma DigitListPieces()
    ensures SplitOnComma("1,2") == ["1", "2"]
  {
    var line := "1,2";
    assert FindChar(line, ',', 0) == Some(1);
    assert line[..1] == "1" && line[2..] == "2";
    assert FindChar("2", ',', 0) == None by {
      assert FindChar("2", ',', 1) == None;
    }
  }

  /** `[a, "b,c", d]` is the list of `a`, `b,c` and `d`: a quoted element
      keeps its comma. */
  lemma QuotedCommaExample()
    ensures Coerce("[a, \"b,c\", d]") == List(["a", "b,c", "d"])
  {
    CoerceBracketed("[a, \"b,c\", d]");
    ExampleSplit();
  }

  lemma ExampleSplit()
    ensures SplitList(Interior("[a, \"b,c\", d]")) == ["a", "b,c", "d"]
  {
    var es := ExampleElements;
    ExampleLayout();
    ExampleStrips();
    assert forall i :: 0 <= i < |es| ==> WellFormed(es[i]);
    SplitListElements(es);
    var r := SplitList(Line(es));
    assert r[0] == "a" && r[1] == "b,c" && r[2] == "d";
  }

  /** The elements of `a, "b,c", d`. */
  const ExampleElements: seq<Element> := [Plain("a"), Quoted(" ", "b,c", ""), Plain(" d")]

  lemma ExampleLayout()
    ensures Interior("[a, \"b,c\", d]") == Line(ExampleElements)
  {
    var es := ExampleElements;
    assert es[1..][1..] == [Plain(" d")];
    assert Line(es[1..]) == " " + Quote("b,c") + "," + " d";
  }

  lemma ExampleStrips()
    ensures Strip("a") == "a" && Strip(" d") == "d"
  {
    StripTrimmed("a");
    StripAround(" ", "d", "");
    StripTrimmed("d");
    assert " " + "d" + "" == " d";
  }
}

=== FILE: listsyntax.dfy ===
/** The list tokeniser: `splitlist` and the regular expression
    `\s*("[^"]*"|.*?)\s*,` it runs with `findall`.

    The expression is modelled as a matcher over the remaining suffix of the
    text. At a given start it skips the greedy leading `\s*`, then tries the
    quoted alternative `"[^"]*"` and, when that cannot be followed by `\s*,`,
    the lazy alternative `.*?` (which never crosses a line feed), in both cases
    followed by `\s*,`. Giving back leading whitespace never lets a failed
    match succeed (a shorter `\s*` leaves a whitespace character where the
    quote would have to be, and the lazy run from an earlier start reaches no
    position the later start cannot), so the greedy choice is the only one
    that needs modelling. `findall` tries the matcher at each position in turn,
    continuing after a match and one character further after a failure. */
module ListSyntax {
  import opened Wrappers
  import opened Text

  /** `\s*,` matches in `t` at index `k`. */
  predicate DelimAt(t: string, k: nat)
    requires k <= |t|
  {
    var j := SkipSpace(t, k);
    j < |t| && t[j] == ','
  }

  /** The index just past the comma that `\s*,` at `k` consumes. */
  function DelimEnd(t: string, k: nat): (e: nat)
    requires k <= |t| && DelimAt(t, k)
    ensures k < e <= |t| && t[e - 1] == ','
  {
    SkipSpace(t, k) + 1
  }

  /** No line feed among `t[from..to]`: the stretch `.` may cover. */
  predicate NoNewline(t: string, from: nat, to: nat)
    requires from <= to <= |t|
  {
    forall k :: from <= k < to ==> t[k] != '\n'
  }

  /** Index of the first `c` in `t` at or after `from`. */
  function FindChar(t: string, c: char, from: nat): (r: Option<nat>)
    requires from <= |t|
    decreases |t| - from
    ensures r.Some? ==> from <= r.value < |t| && t[r.value] == c
    ensures r.Some? ==> forall k :: from <= k < r.value ==> t[k] != c
    ensures r.None? ==> forall k :: from <= k < |t| ==> t[k] != c
  {
    if from == |t| then None
    else if t[from] == c then Some(from)
    else FindChar(t, c, from + 1)
  }

  /** The first occurrence is the one `FindChar` reports. */
  lemma {:induction false} FindCharIs(t: string, c: char, from: nat, at: nat)
    requires from <= at < |t| && t[at] == c
    requires forall k :: from <= k < at ==> t[k] != c
    decreases at - from
    ensures FindChar(t, c, from) == Some(at)
  {
    if from < at {
      FindCharIs(t, c, from + 1, at);
    }
  }

  /** An element written without quotes: no comma, double quote or line feed. */
  predicate Unquoted(p: string) {
    ',' !in p && '"' !in p && '\n' !in p
  }

  /** A group captured by the quoted alternative. */
  predicate QuotedGroup(g: string) {
    && |g| >= 2 && g[0] == '"' && g[|g| - 1] == '"'
    && forall k :: 0 < k < |g| - 1 ==> g[k] != '"'
  }

  /** A group captured by the lazy alternative: no comma, no line feed and no
      whitespace at either end. */
  predicate BareGroup(g: string) {
    && Trimmed(g)
    && forall k :: 0 <= k < |g| ==> g[k] != ',' && g[k] != '\n'
  }

  /** The quoted alternative `"[^"]*"` at index `s`, followed by `\s*,`: the
      index just past the closing quote. */
  function QuotedAlt(t: string, s: nat): (r: Option<nat>)
    requires s <= |t|
    ensures r.Some? ==> s + 2 <= r.value <= |t| && DelimAt(t, r.value)
    ensures r.Some? ==> QuotedGroup(t[s..r.value])
  {
    if s < |t| && t[s] == '"' then
      match FindChar(t, '"', s + 1)
      case Some(c) => if DelimAt(t, c + 1) then Some(c + 1) else None
      case None => None
    else None
  }

  /** The lazy alternative `.*?` having covered the text up to index `q`,
      followed by `\s*,`: the end of the shortest run, not crossing a line feed,
      after which `\s*,` matches. */
  function LazyAlt(t: string, q: nat): (r: Option<nat>)
    requires q <= |t|
    decreases |t| - q
    ensures r.Some? ==> q <= r.value <= |t| && DelimAt(t, r.value)
    ensures r.Some? ==> NoNewline(t, q, r.value)
    ensures r.Some? ==> forall k :: q <= k < r.value ==> !DelimAt(t, k)
  {
    if DelimAt(t, q) then Some(q)
    else if q < |t| && t[q] != '\n' then LazyAlt(t, q + 1)
    else None
  }

  /** The shortest admissible run is the one `LazyAlt` reports. */
  lemma {:induction false} LazyAltIs(t: string, q: nat, e: nat)
    requires q <= e <= |t|
    requires DelimAt(t, e) && NoNewline(t, q, e)
    requires forall k :: q <= k < e ==> !DelimAt(t, k)
    decreases e - q
    ensures LazyAlt(t, q) == Some(e)
  {
    if q < e {
      LazyAltIs(t, q + 1, e);
    }
  }

  /** A comma is itself a place where `\s*,` matches. */
  lemma DelimAtComma(t: string, k: nat)
    requires k < |t| && t[k] == ','
    ensures DelimAt(t, k)
  {
    assert SkipSpace(t, k) == k;
  }

  /** Whitespace in front does not change whether `\s*,` matches. */
  lemma DelimAtSpace(t: string, k: nat)
    requires k < |t| && IsSpace(t[k])
    ensures DelimAt(t, k) == DelimAt(t, k + 1)
  {
    assert SkipSpace(t, k) == SkipSpace(t, k + 1);
  }

  /** The run the lazy alternative captures is a bare group. */
  lemma LazyGroupIsBare(t: string, s: nat, e: nat)
    requires s <= e <= |t|
    requires s < e ==> !IsSpace(t[s])
    requires NoNewline(t, s, e) && DelimAt(t, e)
    requires forall k :: s <= k < e ==> !DelimAt(t, k)
    ensures BareGroup(t[s..e])
  {
    forall k | s <= k < e
      ensures t[k] != ','
    {
      if t[k] == ',' {
        DelimAtComma(t, k);
      }
    }
    if s < e && IsSpace(t[e - 1]) {
      DelimAtSpace(t, e - 1);
    }
  }

  /** One match: the captured group and the number of characters consumed. */
  datatype Token = Token(group: string, len: nat)

  /** The lazy alternative tried at index `s`, as a match. */
  function LazyMatch(t: string, s: nat): (r: Option<Token>)
    requires s <= |t| && (s < |t| ==> !IsSpace(t[s]))
    ensures r.Some? ==> s < r.value.len <= |t| && BareGroup(r.value.group)
  {
    match LazyAlt(t, s)
    case Some(e) =>
      LazyGroupIsBare(t, s, e);
      Some(Token(t[s..e], DelimEnd(t, e)))
    case None => None
  }

  /** `listpattern` tried at the start of `t`. */
  function MatchHere(t: string): (r: Option<Token>)
    ensures r.Some? ==> 0 < r.value.len <= |t|
    ensures r.Some? ==> QuotedGroup(r.value.group) || BareGroup(r.value.group)
  {
    var s := SkipSpace(t, 0);
    match QuotedAlt(t, s)
    case Some(e) => Some(Token(t[s..e], DelimEnd(t, e)))
    case None => LazyMatch(t, s)
  }

  /** A text that starts with a comma always matches. */
  lemma MatchAtComma(t: string)
    ensures |t| > 0 && t[0] == ',' ==> MatchHere(t).Some?
  {
    if |t| > 0 && t[0] == ',' {
      DelimAtComma(t, 0);
      assert SkipSpace(t, 0) == 0;
    }
  }

  /** `listpattern.findall(t)`: the groups of successive non-overlapping matches. */
  function FindAll(t: string): (r: seq<string>)
    decreases |t|
    ensures |t| > 0 && t[|t| - 1] == ',' ==> |r| > 0
  {
    if |t| == 0 then []
    else
      MatchAtComma(t);
      match MatchHere(t)
      case Some(m) => [m.group] + FindAll(t[m.len..])
      case None => FindAll(t[1..])
  }

  /** Every group `findall` captures comes from one of the two alternatives. */
  lemma {:induction false} FindAllShapes(t: string)
    decreases |t|
    ensures forall i :: 0 <= i < |FindAll(t)| ==> QuotedGroup(FindAll(t)[i]) || BareGroup(FindAll(t)[i])
  {
    if |t| > 0 {
      match MatchHere(t)
      case Some(m) =>
        FindAllShapes(t[m.len..]);
        assert FindAll(t) == [m.group] + FindAll(t[m.len..]);
      case None =>
        FindAllShapes(t[1..]);
    }
  }

  /** Python's `line.rstrip(',')`. */
  function RStripCommas(s: string): (r: string)
    ensures |r| <= |s| && s[..|r|] == r
    ensures r == [] || r[|r| - 1] != ','
    ensures forall k :: |r| <= k < |s| ==> s[k] == ','
  {
    if |s| > 0 && s[|s| - 1] == ',' then RStripCommas(s[..|s| - 1]) else s
  }

  /** The element kept for one group: a group that starts and ends with '"'
      loses those two characters (Python's `x[1:-1]`, empty for `x == '"'`). */
  function Unquote(g: string): string {
    if |g| >= 1 && g[0] == '"' && g[|g| - 1] == '"' then
      (if |g| >= 2 then g[1..|g| - 1] else "")
    else g
  }

  /** The groups `findall` captures once trailing commas are replaced by exactly one. */
  function Groups(line: string): (r: seq<string>)
    ensures |r| >= 1
  {
    FindAll(RStripCommas(line) + ",")
  }

  /** `splitlist(line)`: the list elements of the interior of a bracket literal. */
  function SplitList(line: string): (r: seq<string>)
    ensures |r| >= 1
    ensures |r| == |Groups(line)|
    ensures forall i :: 0 <= i < |r| ==> r[i] == Unquote(Groups(line)[i])
  {
    var gs := Groups(line);
    seq(|gs|, i requires 0 <= i < |gs| => Unquote(gs[i]))
  }

  /** Every element `splitlist` yields is either the inside of a quoted group,
      free of double quotes, or taken from a bare group, free of commas and
      line feeds; an element kept exactly as captured is also trimmed. */
  lemma SplitListShapes(line: string)
    ensures var r := SplitList(line);
      forall i :: 0 <= i < |r| ==> '"' !in r[i] || (',' !in r[i] && '\n' !in r[i])
    ensures var r := SplitList(line);
      forall i :: 0 <= i < |r| && r[i] == Groups(line)[i] ==> Trimmed(r[i]) && ',' !in r[i]
  {
    var r := SplitList(line);
    var gs := Groups(line);
    FindAllShapes(RStripCommas(line) + ",");
    forall i | 0 <= i < |r|
      ensures '"' !in r[i] || (',' !in r[i] && '\n' !in r[i])
      ensures r[i] == gs[i] ==> Trimmed(r[i]) && ',' !in r[i]
    {
      ElementShape(gs[i]);
    }
  }

  /** What unquoting makes of a group of either kind. */
  lemma ElementShape(g: string)
    requires QuotedGroup(g) || BareGroup(g)
    ensures '"' !in Unquote(g) || (',' !in Unquote(g) && '\n' !in Unquote(g))
    ensures Unquote(g) == g ==> Trimmed(g) && ',' !in g
  {
    if QuotedGroup(g) {
      assert Unquote(g) == g[1..|g| - 1];
      assert |Unquote(g)| < |g|;
    } else {
      assert forall k :: 0 <= k < |Unquote(g)| ==> Unquote(g)[k] in g;
    }
  }

  /** Inside a run without commas whose last character is not whitespace,
      `\s*,` cannot match before the run ends. */
  lemma NoDelimInsideRun(t: string, k: nat, e: nat)
    requires k < e <= |t| && !IsSpace(t[e - 1])
    requires forall i :: k <= i < e ==> t[i] != ','
    ensures !DelimAt(t, k)
  {
  }

  /** A run without commas or line feeds that ends in a non-whitespace character
      and is followed by whitespace and a comma is exactly what the lazy
      alternative covers. */
  lemma LazyStopsAtRunEnd(t: string, n: nat, e: nat, m: nat)
    requires n <= e <= m < |t| && t[m] == ','
    requires forall i :: n <= i < e ==> t[i] != ',' && t[i] != '\n'
    requires n < e ==> !IsSpace(t[e - 1])
    requires forall i :: e <= i < m ==> IsSpace(t[i])
    ensures LazyAlt(t, n) == Some(e) && DelimEnd(t, e) == m + 1
  {
    SkipSpaceIs(t, e, m);
    forall k | n <= k < e
      ensures !DelimAt(t, k)
    {
      NoDelimInsideRun(t, k, e);
    }
    LazyAltIs(t, n, e);
  }

  /** `listpattern` at a start where the quoted alternative is not tried and
      the lazy one succeeds. */
  lemma MatchHereLazy(t: string, s: nat, e: nat)
    requires s == SkipSpace(t, 0) && s < |t| && t[s] != '"'
    requires LazyAlt(t, s) == Some(e)
    ensures MatchHere(t) == Some(Token(t[s..e], DelimEnd(t, e)))
  {
    assert QuotedAlt(t, s) == None;
  }

  /** In `p + "," + rest` the leading `\s*` covers exactly the leading
      whitespace of `p`, and no quote follows it. */
  lemma PlainStart(p: string, rest: string)
    requires Unquoted(p)
    ensures var t := p + "," + rest; var n := LeadingSpace(p);
      n <= |p| < |t| && SkipSpace(t, 0) == n && t[n] != '"'
  {
    var t := p + "," + rest;
    assert forall i :: 0 <= i < |p| ==> t[i] == p[i];
    SkipSpaceIs(t, 0, LeadingSpace(p));
  }

  /** In `p + "," + rest` the stripped text of `p` is a run without commas or
      line feeds that ends in a non-space and is followed by whitespace up to
      the comma. */
  lemma PlainRun(p: string, rest: string)
    requires Unquoted(p)
    ensures var t := p + "," + rest; var n := LeadingSpace(p); var e := n + |Strip(p)|;
      && n <= e <= |p| < |t| && t[|p|] == ','
      && (forall i :: n <= i < e ==> t[i] != ',' && t[i] != '\n')
      && (n < e ==> !IsSpace(t[e - 1]))
      && (forall i :: e <= i < |p| ==> IsSpace(t[i]))
  {
    var t := p + "," + rest;
    assert forall i :: 0 <= i < |p| ==> t[i] == p[i];
  }

  /** In `p + "," + rest` the stripped text of `p` sits right after its leading
      whitespace. */
  lemma PlainSlice(p: string, rest: string)
    ensures var n := LeadingSpace(p);
      n + |Strip(p)| <= |p| && (p + "," + rest)[n..n + |Strip(p)|] == Strip(p)
  {
    SliceOfFront(p, "," + rest, LeadingSpace(p), LeadingSpace(p) + |Strip(p)|);
    assert p + "," + rest == p + ("," + rest);
  }

  /** A slice inside the front part of a concatenation is a slice of that part. */
  lemma SliceOfFront(a: string, b: string, i: nat, j: nat)
    requires i <= j <= |a|
    ensures (a + b)[i..j] == a[i..j]
  {
    assert forall k :: i <= k < j ==> (a + b)[k] == a[k];
  }

  /** An unquoted element (no comma, quote or line feed) followed by a comma
      matches through the lazy alternative, and its group is the element stripped. */
  lemma MatchPlain(p: string, rest: string)
    requires Unquoted(p)
    ensures MatchHere(p + "," + rest) == Some(Token(Strip(p), |p| + 1))
  {
    var t := p + "," + rest;
    var n := LeadingSpace(p);
    var e := n + |Strip(p)|;
    PlainStart(p, rest);
    PlainRun(p, rest);
    PlainSlice(p, rest);
    LazyStopsAtRunEnd(t, n, e, |p|);
    MatchHereLazy(t, n, e);
  }

  /** `listpattern` at a start where the quoted alternative succeeds. */
  lemma MatchHereQuoted(t: string, s: nat, c: nat, m: Token)
    requires s == SkipSpace(t, 0) && s < |t| && t[s] == '"'
    requires FindChar(t, '"', s + 1) == Some(c) && DelimAt(t, c + 1)
    requires m == Token(t[s..c + 1], DelimEnd(t, c + 1))
    ensures MatchHere(t) == Some(m)
  {
    assert QuotedAlt(t, s) == Some(c + 1);
  }

  /** In `w + "x" + tail` the leading `\s*` covers exactly `w` and the
      opening quote follows it. */
  lemma QuotedStart(w: string, x: string, tail: string)
    requires AllSpace(w)
    ensures var t := w + Quote(x) + tail;
      SkipSpace(t, 0) == |w| && |w| < |t| && t[|w|] == '"'
  {
    var t := w + Quote(x) + tail;
    assert forall i :: 0 <= i < |w| ==> t[i] == w[i];
    SkipSpaceIs(t, 0, |w|);
  }

  /** In `w + "x" + tail` the closing quote is the first one after the
      opening quote. */
  lemma {:induction false} QuotedClose(w: string, x: string, tail: string)
    requires '"' !in x && |tail| > 0
    ensures FindChar(w + Quote(x) + tail, '"', |w| + 1) == Some(|w| + |x| + 1)
  {
    QuotedChars(w, x, tail);
    FindCharIs(w + Quote(x) + tail, '"', |w| + 1, |w| + |x| + 1);
  }

  /** Skipping whitespace inside the second part of a text is skipping it
      in that part alone. */
  lemma SkipSpaceShift(p: string, tail: string, k: nat)
    requires k <= |tail|
    ensures SkipSpace(p + tail, |p| + k) == |p| + SkipSpace(tail, k)
  {
    var t := p + tail;
    var j := SkipSpace(tail, k);
    assert forall i :: |p| + k <= i <= |p| + j && i < |t| ==> t[i] == tail[i - |p|];
    SkipSpaceIs(t, |p| + k, |p| + j);
  }

  /** `\s*,` matches at the start of whitespace followed by a comma, and
      consumes both. */
  lemma SpaceThenComma(v: string, rest: string)
    requires AllSpace(v)
    ensures DelimAt(v + "," + rest, 0) && DelimEnd(v + "," + rest, 0) == |v| + 1
  {
    var t := v + "," + rest;
    assert forall i :: 0 <= i < |v| ==> t[i] == v[i];
    assert t[|v|] == ',';
    SkipSpaceIs(t, 0, |v|);
  }

  /** `\s*,` after the closing quote of `w + "x" + tail` is `\s*,` at the
      start of `tail`. */
  lemma QuotedDelim(w: string, x: string, tail: string)
    requires DelimAt(tail, 0)
    ensures var t := w + Quote(x) + tail; var c := |w| + |x| + 1;
      c + 1 < |t| && DelimAt(t, c + 1) && DelimEnd(t, c + 1) == c + 1 + DelimEnd(tail, 0)
  {
    var p := w + Quote(x);
    SkipSpaceShift(p, tail, 0);
  }

  /** The characters of `w + "x" + tail` around and inside the quotes. */
  lemma QuotedChars(w: string, x: string, tail: string)
    requires '"' !in x && |tail| > 0
    ensures var t := w + Quote(x) + tail; var c := |w| + |x| + 1;
      && c + 1 < |t| && t[c] == '"' && t[c + 1] == tail[0]
      && forall i :: |w| + 1 <= i < c ==> t[i] != '"'
  {
    var q := Quote(x);
    var t := w + q + tail;
    assert forall i :: |w| <= i < |w| + |q| ==> t[i] == q[i - |w|];
    assert forall j :: 1 <= j <= |x| ==> q[j] == x[j - 1];
  }

  /** In `w + "x" + tail` the quoted alternative captures `"x"`. */
  lemma QuotedSlice(w: string, x: string, tail: string)
    ensures (w + Quote(x) + tail)[|w|..|w| + |x| + 2] == Quote(x)
  {
  }

  /** A double-quoted element without inner quotes, after optional whitespace
      and followed by optional whitespace and a comma, matches through the
      quoted alternative. */
  lemma {:induction false} MatchQuoted(w: string, x: string, v: string, rest: string)
    requires AllSpace(w) && '"' !in x && AllSpace(v)
    ensures MatchHere(w + Quote(x) + v + "," + rest) == Some(Token(Quote(x), |w| + |x| + |v| + 3))
  {
    var tail := v + "," + rest;
    var t := w + Quote(x) + tail;
    var c := |w| + |x| + 1;
    assert w + Quote(x) + v + "," + rest == t by {
      Regroup(w, Quote(x), v, ",", rest);
    }
    SpaceThenComma(v, rest);
    QuotedStart(w, x, tail);
    QuotedClose(w, x, tail);
    QuotedDelim(w, x, tail);
    QuotedSlice(w, x, tail);
    MatchHereQuoted(t, |w|, c, Token(Quote(x), |w| + |x| + |v| + 3));
  }

  /** `findall` continues after a match. */
  lemma FindAllStep(t: string, m: Token)
    requires MatchHere(t) == Some(m)
    ensures FindAll(t) == [m.group] + FindAll(t[m.len..])
  {
  }

  /** An unquoted element followed by a comma contributes its stripped text
      and `findall` carries on after the comma. */
  lemma FindAllPlainStep(p: string, rest: string)
    requires Unquoted(p)
    ensures FindAll(p + "," + rest) == [Strip(p)] + FindAll(rest)
  {
    var t := p + "," + rest;
    MatchPlain(p, rest);
    FindAllStep(t, Token(Strip(p), |p| + 1));
    assert t[|p| + 1..] == rest;
  }

  /** A quoted element followed by a comma contributes itself, quotes included,
      and `findall` carries on after the comma. */
  lemma FindAllQuotedStep(w: string, x: string, v: string, rest: string)
    requires AllSpace(w) && '"' !in x && AllSpace(v)
    ensures FindAll(w + Quote(x) + v + "," + rest) == [Quote(x)] + FindAll(rest)
  {
    var t := w + Quote(x) + v + "," + rest;
    MatchQuoted(w, x, v, rest);
    FindAllStep(t, Token(Quote(x), |w| + |x| + |v| + 3));
    assert t[|w| + |x| + |v| + 3..] == rest;
  }

  /** Unquoting a quoted element gives back the element. */
  lemma UnquoteQuote(x: string)
    ensures Unquote(Quote(x)) == x
  {
    assert Quote(x)[1..|x| + 1] == x;
  }

  /** Text without double quotes is kept as it is. */
  lemma UnquotePlain(g: string)
    requires '"' !in g
    ensures Unquote(g) == g
  {
  }

  /** A line that does not end in a comma has no trailing commas to drop. */
  lemma RStripNoComma(s: string)
    requires |s| > 0 && s[|s| - 1] != ','
    ensures RStripCommas(s) == s
  {
  }

  /** One element of a list line: an unquoted run, or a double-quoted text
      with whitespace `w` before it and `v` after it. */
  datatype Element = Plain(p: string) | Quoted(w: string, x: string, v: string)

  predicate WellFormed(e: Element) {
    match e
    case Plain(p) => Unquoted(p)
    case Quoted(w, x, v) => AllSpace(w) && '"' !in x && AllSpace(v)
  }

  /** How the element is written on the line. */
  function Written(e: Element): string {
    match e
    case Plain(p) => p
    case Quoted(w, x, v) => w + Quote(x) + v
  }

  /** The list element the writer meant: an unquoted run without its
      surrounding whitespace, a quoted text as it stands between the quotes. */
  function Meant(e: Element): string {
    match e
    case Plain(p) => Strip(p)
    case Quoted(_, x, _) => x
  }

  /** The group `findall` captures for the element. */
  function Captured(e: Element): string {
    match e
    case Plain(p) => Strip(p)
    case Quoted(_, x, _) => Quote(x)
  }

  function CapturedAll(es: seq<Element>): (r: seq<string>)
    ensures |r| == |es| && forall i :: 0 <= i < |es| ==> r[i] == Captured(es[i])
  {
    if |es| == 0 then [] else [Captured(es[0])] + CapturedAll(es[1..])
  }

  /** Every element written and followed by a comma. */
  function Closed(es: seq<Element>): string {
    if |es| == 0 then "" else Written(es[0]) + "," + Closed(es[1..])
  }

  /** The elements written one after the other, separated by commas: closing
      it with one more comma gives `Closed`. */
  function Line(es: seq<Element>): (r: string)
    requires |es| > 0
    ensures r + "," == Closed(es)
  {
    if |es| == 1 then
      assert Written(es[0]) + "," == Closed(es) by {
        assert Closed(es) == Written(es[0]) + "," + "";
      }
      Written(es[0])
    else
      var l := Line(es[1..]);
      assert Written(es[0]) + "," + l + "," == Closed(es) by {
        assert Closed(es) == Written(es[0]) + "," + (l + ",");
      }
      Written(es[0]) + "," + l
  }

  /** A line ends as its last element does. */
  lemma {:induction false} LineEnds(es: seq<Element>)
    requires |es| > 0 && Written(es[|es| - 1]) != ""
    ensures var r := Line(es); var t := Written(es[|es| - 1]);
      |r| > 0 && r[|r| - 1] == t[|t| - 1]
  {
    var t := Written(es[|es| - 1]);
    if |es| > 1 {
      var l := Line(es[1..]);
      assert |l| > 0 && l[|l| - 1] == t[|t| - 1] by {
        LineEnds(es[1..]);
        assert es[1..][|es| - 2] == es[|es| - 1];
      }
      LineCons(es);
      EndsAsSecond(Written(es[0]) + ",", l);
    } else {
      assert Line(es) == t;
    }
  }

  /** A line of several elements is the first one, a comma and the line of
      the others. */
  lemma LineCons(es: seq<Element>)
    requires |es| > 1
    ensures Line(es) == Written(es[0]) + "," + Line(es[1..])
  {
  }

  /** A text ends as its non-empty second part does. */
  lemma EndsAsSecond(a: string, b: string)
    requires |b| > 0
    ensures var r := a + b; |r| > 0 && r[|r| - 1] == b[|b| - 1]
  {
  }

  /** `findall` over well-formed elements, each closed by a comma, captures
      one group per element, in order. */
  lemma {:induction false} FindAllClosed(es: seq<Element>)
    requires forall i :: 0 <= i < |es| ==> WellFormed(es[i])
    ensures FindAll(Closed(es)) == CapturedAll(es)
  {
    if |es| > 0 {
      var rest := Closed(es[1..]);
      FindAllClosed(es[1..]);
      match es[0]
      case Plain(p) =>
        FindAllPlainStep(p, rest);
      case Quoted(w, x, v) =>
        FindAllQuotedStep(w, x, v, rest);
    }
  }

  /** What `splitlist` keeps of a captured group is the element meant. */
  lemma UnquoteCaptured(e: Element)
    requires WellFormed(e)
    ensures Unquote(Captured(e)) == Meant(e)
  {
    match e
    case Plain(p) =>
      StripKeepsAbsent(p, '"');
      UnquotePlain(Strip(p));
    case Quoted(_, x, _) =>
      UnquoteQuote(x);
  }

  /** `splitlist` over any line of well-formed elements whose last one is not
      empty reads back every element as meant, quoted and unquoted ones in
      any mix: a quoted element keeps its commas and inner whitespace, an
      unquoted one is stripped. (An empty last element is dropped together
      with the comma before it by `rstrip(',')`.) */
  lemma SplitListElements(es: seq<Element>)
    requires |es| > 0 && forall i :: 0 <= i < |es| ==> WellFormed(es[i])
    requires Written(es[|es| - 1]) != ""
    ensures var r := SplitList(Line(es));
      |r| == |es| && forall i :: 0 <= i < |es| ==> r[i] == Meant(es[i])
  {
    var line := Line(es);
    var last := es[|es| - 1];
    var text := Written(last);
    assert text[|text| - 1] != ',' by {
      match last
      case Plain(p) =>
        assert p[|p| - 1] in p;
      case Quoted(w, x, v) =>
        if |v| > 0 {
          assert text[|text| - 1] == v[|v| - 1];
        } else {
          assert text == w + ("\"" + x + "\"") + v;
        }
    }
    LineEnds(es);
    RStripNoComma(line);
    FindAllClosed(es);
    forall i | 0 <= i < |es|
      ensures SplitList(line)[i] == Meant(es[i])
    {
      UnquoteCaptured(es[i]);
    }
  }

  /** Concrete instance: an empty interior yields one empty element. */
  lemma SplitListEmptyInterior()
    ensures SplitList("") == [""]
  {
    assert RStripCommas("") == "";
    MatchPlain("", "");
    assert "" + "," + "" == ",";
    assert Strip("") == "";
    assert ","[1..] == "";
    assert FindAll(",") == [""];
    assert Groups("") == [""];
  }

  /** Python's `s.split(',')`: the pieces between commas, empty pieces included. */
  function SplitOnComma(s: string): (r: seq<string>)
    decreases |s|
    ensures |r| >= 1
    ensures forall i :: 0 <= i < |r| ==> ',' !in r[i]
  {
    match FindChar(s, ',', 0)
    case None => [s]
    case Some(c) => [s[..c]] + SplitOnComma(s[c + 1..])
  }

  /** A character absent from `s` is absent from every piece. */
  lemma {:induction false} SplitOnCommaAvoids(s: string, ch: char)
    requires ch !in s
    decreases |s|
    ensures forall i :: 0 <= i < |SplitOnComma(s)| ==> ch !in SplitOnComma(s)[i]
  {
    match FindChar(s, ',', 0)
    case None =>
    case Some(c) =>
      assert ch !in s[..c];
      assert ch !in s[c + 1..];
      SplitOnCommaAvoids(s[c + 1..], ch);
  }

  function StripAll(ps: seq<string>): (r: seq<string>)
    ensures |r| == |ps| && forall i :: 0 <= i < |ps| ==> r[i] == Strip(ps[i])
  {
    if |ps| == 0 then [] else [Strip(ps[0])] + StripAll(ps[1..])
  }

  /** Without quotes or line feeds, `findall` splits at every comma and strips
      each piece. */
  lemma {:induction false} FindAllPlain(s: string)
    requires '"' !in s && '\n' !in s
    decreases |s|
    ensures FindAll(s + ",") == StripAll(SplitOnComma(s))
  {
    match FindChar(s, ',', 0)
    case None =>
      FindAllPlainStep(s, "");
      assert s + "," + "" == s + ",";
    case Some(c) =>
      var p := s[..c];
      var s' := s[c + 1..];
      assert s + "," == p + "," + (s' + ",") by {
        assert s == p + "," + s';
      }
      assert '"' !in p && '\n' !in p;
      assert '"' !in s' && '\n' !in s';
      FindAllPlainStep(p, s' + ",");
      FindAllPlain(s');
  }

  /** For a line without quotes or line feeds, `splitlist` is "drop trailing
      commas, split at commas, strip every piece". */
  lemma SplitListPlain(line: string)
    requires '"' !in line && '\n' !in line
    ensures SplitList(line) == StripAll(SplitOnComma(RStripCommas(line)))
  {
    var s := RStripCommas(line);
    assert '"' !in s && '\n' !in s by {
      assert s == line[..|s|];
    }
    FindAllPlain(s);
    SplitOnCommaAvoids(s, '"');
    var r := SplitList(line);
    var e := StripAll(SplitOnComma(s));
    forall i | 0 <= i < |r|
      ensures r[i] == e[i]
    {
      StripKeepsAbsent(SplitOnComma(s)[i], '"');
    }
  }

  /** `"x"` */
  function Quote(x: string): string {
    "\"" + x + "\""
  }

  /** Each element written in double quotes and followed by a comma. */
  function QuotedJoin(xs: seq<string>): (r: string)
    ensures |xs| > 0 ==> |r| >= 3 && r[|r| - 1] == ',' && r[|r| - 2] == '"'
  {
    if |xs| == 0 then "" else Quote(xs[0]) + "," + QuotedJoin(xs[1..])
  }

  function QuoteAll(xs: seq<string>): (r: seq<string>)
    ensures |r| == |xs| && forall i :: 0 <= i < |xs| ==> r[i] == Quote(xs[i])
  {
    if |xs| == 0 then [] else [Quote(xs[0])] + QuoteAll(xs[1..])
  }

  /** `findall` recovers every double-quoted element, commas and whitespace inside included. */
  lemma {:induction false} FindAllQuotedJoin(xs: seq<string>)
    requires forall i :: 0 <= i < |xs| ==> '"' !in xs[i]
    ensures FindAll(QuotedJoin(xs)) == QuoteAll(xs)
  {
    if |xs| > 0 {
      var rest := QuotedJoin(xs[1..]);
      MatchQuoted("", xs[0], "", rest);
      assert "" + Quote(xs[0]) + "" == Quote(xs[0]);
      assert (Quote(xs[0]) + "," + rest)[|xs[0]| + 3..] == rest;
      FindAllQuotedJoin(xs[1..]);
    }
  }

  /** The interior of a list literal whose elements are written in double quotes
      and separated by commas. */
  function ListBody(xs: seq<string>): (r: string)
    requires |xs| > 0
    ensures r + "," == QuotedJoin(xs)
    ensures r[|r| - 1] == '"'
  {
    var j := QuotedJoin(xs);
    j[..|j| - 1]
  }

  /** `splitlist` reads back every non-empty list of quote-free strings written
      by `ListBody`: quotes protect embedded commas and surrounding whitespace. */
  lemma SplitListRoundTrip(xs: seq<string>)
    requires |xs| > 0
    requires forall i :: 0 <= i < |xs| ==> '"' !in xs[i]
    ensures SplitList(ListBody(xs)) == xs
  {
    var b := ListBody(xs);
    assert RStripCommas(b) == b;
    FindAllQuotedJoin(xs);
    var r := SplitList(b);
    forall i | 0 <= i < |xs|
      ensures r[i] == xs[i]
    {
      assert Quote(xs[i])[1..|xs[i]| + 1] == xs[i];
    }
  }
}

=== FILE: paths.dfy ===
/** Path composition as POSIX `os.path.join` does it, and the data-file lookup
    of `Config.t2w_file_path`: a file is taken from the instance's own data
    directory when it is there, from the system-wide data directory when only
    that one has it, and the local path is answered otherwise. The filesystem
    is an abstract set of existing paths. */
module Paths {
  import opened Wrappers
  import opened Text
  import opened Values

  predicate IsAbsolute(p: string) {
    |p| > 0 && p[0] == '/'
  }

  /** True when joining onto `a` needs no separator: `a` is empty or already
      ends with '/'. */
  predicate NeedsNoSeparator(a: string) {
    a == "" || a[|a| - 1] == '/'
  }

  /** `os.path.join(a, b)` on POSIX: an absolute `b` replaces `a`; otherwise `b`
      is appended to `a` with exactly one '/' added when `a` does not already
      end in one. */
  function Join(a: string, b: string): (r: string)
    ensures IsAbsolute(b) ==> r == b
    ensures !IsAbsolute(b) ==>
      && |r| == |a| + |b| + (if NeedsNoSeparator(a) then 0 else 1)
      && r[..|a|] == a
      && r[|r| - |b|..] == b
      && (!NeedsNoSeparator(a) ==> r[|a|] == '/')
  {
    if IsAbsolute(b) then b
    else if NeedsNoSeparator(a) then a + b
    else a + "/" + b
  }

  /** Joining with an empty relative part adds at most the separator, which a
      following relative join would have added anyway. */
  lemma JoinEmptyMiddle(a: string, c: string)
    requires !IsAbsolute(c)
    ensures Join(Join(a, ""), c) == Join(a, c)
  {
    if !NeedsNoSeparator(a) {
      assert a + "/" + "" == a + "/";
      assert (a + "/") + c == a + "/" + c;
    } else {
      assert a + "" == a;
    }
  }

  /** The separator a relative join puts after `a`. */
  function Separator(a: string): string {
    if NeedsNoSeparator(a) then "" else "/"
  }

  lemma JoinRelative(a: string, b: string)
    requires !IsAbsolute(b)
    ensures Join(a, b) == a + Separator(a) + b
  {
    if NeedsNoSeparator(a) {
      assert a + "" + b == a + b;
    }
  }

  /** Joining two relative parts in either grouping gives the same text. */
  lemma JoinRelativeMiddle(a: string, b: string, c: string)
    requires !IsAbsolute(b) && !IsAbsolute(c) && b != ""
    ensures Join(Join(a, b), c) == Join(a, Join(b, c))
  {
    var ab := Join(a, b);
    var bc := Join(b, c);
    JoinRelative(a, b);
    JoinRelative(b, c);
    assert Separator(ab) == Separator(b) by {
      assert ab[|ab| - 1] == b[|b| - 1];
    }
    assert !IsAbsolute(bc) by {
      assert bc[0] == b[0];
    }
    JoinRelative(ab, c);
    JoinRelative(a, bc);
    Regroup(a, Separator(a), b, Separator(b), c);
  }

  /** Joining is associative, so a relative path may be split at any '/'
      boundary without changing where it leads. */
  lemma JoinAssociative(a: string, b: string, c: string)
    ensures Join(Join(a, b), c) == Join(a, Join(b, c))
  {
    if IsAbsolute(c) {
    } else if IsAbsolute(b) {
    } else if b == "" {
      JoinEmptyMiddle(a, c);
    } else {
      JoinRelativeMiddle(a, b, c);
    }
  }

  /** `os.path.join` raising `TypeError` because a directory setting is not a
      string: the name of the setting and what it held. */
  datatype PathError = NotAString(setting: string, value: Value)

  /** Joins the directory held by a setting with `path`, failing when the
      setting does not hold a string. */
  function JoinSetting(setting: string, dir: Value, path: string): (r: Result<string, PathError>)
    ensures dir.Str? <==> r.Success?
    ensures dir.Str? ==> r.value == Join(dir.s, path)
    ensures r.Failure? ==> r.error == NotAString(setting, dir)
  {
    if dir.Str? then Success(Join(dir.s, path)) else Failure(NotAString(setting, dir))
  }

  /** `t2w_file_path(path)` given the values of `datadir` and `sysdatadir` and
      the set of existing paths. Both paths are composed before either is
      looked up, so a non-string `sysdatadir` fails even when the local file
      exists. */
  function ResolveAsset(datadir: Value, sysdatadir: Value, path: string, present: set<string>): (r: Result<string, PathError>)
    ensures r.Success? <==> datadir.Str? && sysdatadir.Str?
    ensures !datadir.Str? ==> r == Failure(NotAString("datadir", datadir))
    ensures datadir.Str? && !sysdatadir.Str? ==> r == Failure(NotAString("sysdatadir", sysdatadir))
    ensures r.Success? ==>
      var local := Join(datadir.s, path);
      var global := Join(sysdatadir.s, path);
      && (r.value == local || r.value == global)
      && (local in present ==> r.value == local)
      && (local !in present && global in present ==> r.value == global)
      && (local !in present && global !in present ==> r.value == local)
      && (r.value in present <==> local in present || global in present)
  {
    match JoinSetting("datadir", datadir, path)
    case Failure(e) => Failure(e)
    case Success(local) =>
      match JoinSetting("sysdatadir", sysdatadir, path)
      case Failure(e) => Failure(e)
      case Success(global) =>
        if local in present then Success(local)
        else if global in present then Success(global)
        else Success(local)
  }

  /** An absolute path is answered unchanged whatever the directories and the
      filesystem hold, once both directories are strings. */
  lemma ResolveAbsolute(datadir: string, sysdatadir: string, path: string, present: set<string>)
    requires IsAbsolute(path)
    ensures ResolveAsset(Str(datadir), Str(sysdatadir), path, present) == Success(path)
  {
  }

  /** When the two directories coincide the lookup is the plain join. */
  lemma ResolveSameDir(dir: string, path: string, present: set<string>)
    ensures ResolveAsset(Str(dir), Str(dir), path, present) == Success(Join(dir, path))
  {
  }
}

=== FILE: settings.dfy ===
/** The attribute protocol of `Config`: every setting lives in the instance's
    attribute dictionary (`store`), a setting never stored reaches
    `__getattr__` and reads as `None`, and an assignment to a public name is
    mirrored into the option parser's `main` section. Names starting with '_'
    are private and never reach the parser. */
module Settings {
  import opened Wrappers
  import opened Text
  import opened Values
  import opened Paths

  /** The part of the option parser assignments reach: the raw text of each
      option of the `main` section, keyed by its lower-cased name, and the
      names for which the parser answers `NoOptionError`. */
  datatype Parser = Parser(options: map<string, string>, refused: set<string>)

  /** A configuration: the attribute dictionary and the option parser. */
  datatype Config = Config(store: map<string, Value>, parser: Parser)

  /** What an assignment can raise once the attribute has been stored. */
  datatype SetError =
    | NameError(name: string)
    | OptionTypeError(name: string, value: Value)

  /** The name of the parser section every setting belongs to. */
  const Section: string := "main"

  /** `cfg.name` for a setting: the stored value, or, through `__getattr__`,
      `None` for a name never set. Names the class itself defines (its
      methods) are found before `__getattr__` and are not settings. */
  function GetAttr(c: Config, name: string): (v: Value)
    ensures name in c.store ==> v == c.store[name]
    ensures name !in c.store ==> v == Null
  {
    if name in c.store then c.store[name] else Null
  }

  /** Names starting with '_' are private attributes, kept out of the parser. */
  predicate IsPrivate(name: string) {
    |name| > 0 && name[0] == '_'
  }

  /** The outcome of an assignment: the resulting configuration and the error
      raised, if any. The assignment to the dictionary happens first, so it
      survives an error. */
  datatype SetOutcome = SetOutcome(config: Config, error: Option<SetError>)

  /** `cfg.name = v`. A private name only updates the dictionary. A public name
      is also handed to the parser, which takes only string values (anything
      else raises `TypeError`) and stores them under the lower-cased name; a
      `NoOptionError` from the parser is raised again as `NameError`. */
  function SetAttr(c: Config, name: string, v: Value): (r: SetOutcome)
    ensures r.config.store == c.store[name := v]
    ensures IsPrivate(name) ==> r.config.parser == c.parser && r.error == None
    ensures !IsPrivate(name) && !v.Str? ==>
      r.error == Some(OptionTypeError(name, v)) && r.config.parser == c.parser
    ensures !IsPrivate(name) && v.Str? && Lower(name) in c.parser.refused ==>
      r.error == Some(NameError(name)) && r.config.parser == c.parser
    ensures r.error == None <==> IsPrivate(name) || (v.Str? && Lower(name) !in c.parser.refused)
    ensures r.error == None && !IsPrivate(name) ==>
      r.config.parser.refused == c.parser.refused &&
      r.config.parser.options == c.parser.options[Lower(name) := v.s]
  {
    var c' := c.(store := c.store[name := v]);
    if IsPrivate(name) then SetOutcome(c', None)
    else if !v.Str? then SetOutcome(c', Some(OptionTypeError(name, v)))
    else if Lower(name) in c.parser.refused then SetOutcome(c', Some(NameError(name)))
    else SetOutcome(c'.(parser := c.parser.(options := c.parser.options[Lower(name) := v.s])), None)
  }

  /** Reading a setting right after assigning it gives the assigned value,
      whether or not the parser accepted it. */
  lemma GetAfterSet(c: Config, name: string, v: Value)
    ensures GetAttr(SetAttr(c, name, v).config, name) == v
  {
  }

  /** An assignment leaves every other setting as it was. */
  lemma SetLeavesOthers(c: Config, name: string, other: string, v: Value)
    requires other != name
    ensures GetAttr(SetAttr(c, name, v).config, other) == GetAttr(c, other)
  {
  }

  /** Assigning twice is assigning the second value, when neither assignment
      raises. */
  lemma SetTwice(c: Config, name: string, v1: Value, v2: Value)
    requires SetAttr(c, name, v1).error == None && SetAttr(c, name, v2).error == None
    ensures SetAttr(SetAttr(c, name, v1).config, name, v2) == SetAttr(c, name, v2)
  {
    var c1 := SetAttr(c, name, v1).config;
    assert c1.store[name := v2] == c.store[name := v2];
    if !IsPrivate(name) && v2.Str? && Lower(name) !in c.parser.refused {
      assert c1.parser.options[Lower(name) := v2.s] == c.parser.options[Lower(name) := v2.s];
    }
  }

  /** Every option the parser holds is also a setting in the dictionary. */
  predicate Mirrored(c: Config) {
    forall o :: o in c.parser.options ==> o in c.store
  }

  /** An assignment keeps every parser option backed by a setting when the
      name is already lower-case (as the parser stores it), whether or not it
      raises. */
  lemma {:induction false} SetKeepsMirror(c: Config, name: string, v: Value)
    requires Mirrored(c) && Lower(name) == name
    ensures Mirrored(SetAttr(c, name, v).config)
  {
  }

  /** A public assignment of a string the parser accepts leaves the parser
      holding exactly that text for the name. */
  lemma SetMirrorsText(c: Config, name: string, s: string)
    requires !IsPrivate(name) && Lower(name) == name && name !in c.parser.refused
    ensures var r := SetAttr(c, name, Str(s));
      r.error == None && r.config.parser.options[name] == s && GetAttr(r.config, name) == Str(s)
  {
  }

  /** `t2w_file_path(path)`: where a data file is read from, given the set of
      paths that exist. */
  function FilePath(c: Config, path: string, present: set<string>): (r: Result<string, PathError>)
    ensures r.Success? <==> GetAttr(c, "datadir").Str? && GetAttr(c, "sysdatadir").Str?
    ensures r.Success? ==>
      var local := Join(GetAttr(c, "datadir").s, path);
      var global := Join(GetAttr(c, "sysdatadir").s, path);
      && (local in present ==> r.value == local)
      && (local !in present && global in present ==> r.value == global)
      && (local !in present && global !in present ==> r.value == local)
  {
    ResolveAsset(GetAttr(c, "datadir"), GetAttr(c, "sysdatadir"), path, present)
  }
}

=== FILE: startup.dfy ===
/** Building a `Config`: the built-in defaults (with the command-line options
    folded in), the options of the file's `main` section coerced and laid over
    them, the check that the file raised nothing, `verify_config_is_sane`, and
    finally the certificate paths derived from `datadir` for the TLS settings
    still left unset. */
module Startup {
  import opened Wrappers
  import opened Text
  import opened Values
  import opened Coercion
  import opened Validation
  import opened Paths
  import opened Settings

  /** The command-line options and the defaults they take. */
  datatype LaunchOptions = LaunchOptions(
    configfile: string,
    pidfile: string,
    uid: string,
    gid: string,
    nodaemon: bool,
    rundir: string,
    command: string)

  const DefaultLaunch: LaunchOptions := LaunchOptions(
    "/etc/tor2web.conf", "/var/run/tor2web/t2w.pid", "", "", false, "/var/run/tor2web/", "start")

  const DefaultTransport: string := "BOTH"

  const CipherList: string :=
    "ECDHE-RSA-AES256-GCM-SHA384:ECDHE-RSA-AES256-SHA384:" +
    "ECDHE-RSA-AES128-GCM-SHA256:ECDHE-RSA-AES128-SHA256:" +
    "ECDHE-RSA-AES256-SHA:DHE-DSS-AES256-SHA:DHE-RSA-AES128-SHA:"

  /** The protocol prefix derived from a transport: `http://` only for `HTTP`. */
  function ProtoFor(transport: string): (p: string)
    ensures p == "http://" <==> transport == "HTTP"
    ensures p == "http://" || p == "https://"
  {
    if transport == "HTTP" then "http://" else "https://"
  }

  /** The dictionary before the file is read: the settings the rest of the
      model reads by name (`KeyedDefaults`) over the others. `devData` is the
      development data directory next to the program, when it exists; it
      replaces the system-wide data directory. */
  function Defaults(opts: LaunchOptions, devData: Option<string>): map<string, Value> {
    OtherDefaults(opts) + KeyedDefaults(devData)
  }

  /** The built-in settings nothing else in the model reads by name. */
  function OtherDefaults(opts: LaunchOptions): map<string, Value> {
    ProcessDefaults(opts) + ServiceDefaults
  }

  /** The private attributes and the settings of the process and its network
      endpoints. */
  function ProcessDefaults(opts: LaunchOptions): map<string, Value> {
    map[
      "_section" := Str(Section),
      "_file" := Str(opts.configfile),
      "configfile" := Str(opts.configfile),
      "pidfile" := Str(opts.pidfile),
      "uid" := Str(opts.uid),
      "gid" := Str(opts.gid),
      "nodaemon" := Bool(opts.nodaemon),
      "command" := Str(opts.command),
      "nodename" := Str("tor2web"),
      "rundir" := Str(opts.rundir),
      "processes" := Int(1),
      "requests_per_process" := Int(1000000),
      "listen_ipv4" := Str("127.0.0.1"),
      "listen_ipv6" := Null,
      "listen_port_http" := Int(80),
      "listen_port_https" := Int(443),
      "basehost" := Str("AUTO"),
      "sockshost" := Str("127.0.0.1"),
      "socksport" := Int(9050),
      "sockmaxpersistentperhost" := Int(5),
      "sockcachedconnectiontimeout" := Int(240),
      "sockretryautomatically" := Bool(true)
    ]
  }

  /** The settings of the served content, the mail notifications and the
      blocklist. */
  const ServiceDefaults: map<string, Value> :=
    map[
      "cipher_list" := Str(CipherList),
      "mode" := Str("BLOCKLIST"),
      "onion" := Null,
      "blockhotlinking_exts" := List(["jpg", "png", "gif"]),
      "disable_disclaimer" := Bool(false),
      "avoid_rewriting_visible_content" := Bool(false),
      "smtpuser" := Str("globaleaks"),
      "smtppass" := Str("globaleaks"),
      "smtpmail" := Str("notification@demo.globaleaks.org"),
      "smtpmailto_exceptions" := Str("stackexception@lists.tor2web.org"),
      "smtpmailto_notifications" := Str("tor2web-abuse@lists.tor2web.org"),
      "smtpdomain" := Str("mail.globaleaks.org"),
      "smtpport" := Int(9267),
      "smtpsecurity" := Str("TLS"),
      "exit_node_list_refresh" := Int(600),
      "automatic_blocklist_updates_source" := Str(""),
      "automatic_blocklist_updates_refresh" := Int(600),
      "automatic_blocklist_updates_mode" := Str("MERGE"),
      "publish_blocklist" := Bool(false),
      "mirror" := List([]),
      "dummyproxy" := Null,
      "bufsize" := Int(4096)
    ]

  function KeyedDefaults(devData: Option<string>): map<string, Value> {
    map[
      "datadir" := Str("/home/tor2web"),
      "sysdatadir" := Str(if devData.Some? then devData.value else "/usr/share/tor2web/data"),
      "ssl_key" := Null,
      "ssl_cert" := Null,
      "ssl_intermediate" := Null,
      "ssl_dh" := Null,
      "logreqs" := Bool(false),
      "debugmode" := Bool(true),
      "debugtostdout" := Bool(true),
      "transport" := Str(DefaultTransport),
      "blockhotlinking" := Bool(true),
      "extra_http_response_headers" := Null,
      "disable_banner" := Bool(false),
      "disable_tor_redirection" := Bool(false),
      "disable_gettor" := Bool(false),
      "proto" := Str(ProtoFor(DefaultTransport))
    ]
  }

  /** The defaults of the settings `verify_config_is_sane` checks. */
  lemma CheckedDefaults(devData: Option<string>)
    ensures var d := KeyedDefaults(devData);
      && d["transport"] == Str("BOTH")
      && d["logreqs"] == Bool(false)
      && d["debugmode"] == Bool(true)
      && d["debugtostdout"] == Bool(true)
      && d["blockhotlinking"] == Bool(true)
      && d["disable_banner"] == Bool(false)
      && d["disable_tor_redirection"] == Bool(false)
      && d["disable_gettor"] == Bool(false)
      && d["proto"] == Str("https://")
  {
  }

  /** The default data directories. */
  lemma DirDefaults(devData: Option<string>)
    ensures var d := KeyedDefaults(devData);
      && d["datadir"] == Str("/home/tor2web")
      && d["sysdatadir"] == Str(if devData.Some? then devData.value else "/usr/share/tor2web/data")
  {
  }

  /** The settings the last loading steps read by name start unset. */
  lemma UnsetDefaults(devData: Option<string>)
    ensures var d := KeyedDefaults(devData);
      && d["ssl_key"] == Null && d["ssl_cert"] == Null
      && d["ssl_intermediate"] == Null && d["ssl_dh"] == Null
      && d["extra_http_response_headers"] == Null
  {
  }

  /** Settings of the keyed part are read from it. */
  lemma KeyedWins(opts: LaunchOptions, devData: Option<string>)
    ensures forall k :: k in KeyedDefaults(devData) ==>
      k in Defaults(opts, devData) && Defaults(opts, devData)[k] == KeyedDefaults(devData)[k]
  {
  }

  /** The built-in defaults pass `verify_config_is_sane`. */
  lemma DefaultsSane(opts: LaunchOptions, devData: Option<string>)
    ensures VerifyConfigIsSane(Defaults(opts, devData)).Pass?
  {
    var d := Defaults(opts, devData);
    CheckedDefaults(devData);
    KeyedWins(opts, devData);
    assert Sane(d);
    VerifyConfigIsSaneCorrect(d);
  }

  /** The membership facts the loading steps rely on. */
  lemma DefaultKeys(opts: LaunchOptions, devData: Option<string>)
    ensures var d := Defaults(opts, devData);
      && "datadir" in d && "extra_http_response_headers" in d
      && "ssl_key" in d && "ssl_cert" in d && "ssl_intermediate" in d && "ssl_dh" in d
  {
    KeyedWins(opts, devData);
  }
  /** `load()` starts from `_section = 'main'` and the parser made in
      `__init__`, and no built-in setting hides a method of `Config`. */
  lemma DefaultsOrdinary(opts: LaunchOptions, devData: Option<string>)
    ensures Ordinary(Defaults(opts, devData)) && !HidesCheck(Defaults(opts, devData))
  {
    DefaultsRead(opts, devData);
    DefaultsChecked(opts, devData);
  }

  lemma DefaultsRead(opts: LaunchOptions, devData: Option<string>)
    ensures Ordinary(Defaults(opts, devData))
  {
    KeyedReads(devData);
    ServiceReads();
    ProcessReads(opts);
  }

  lemma DefaultsChecked(opts: LaunchOptions, devData: Option<string>)
    ensures !HidesCheck(Defaults(opts, devData))
  {
    KeyedChecks(devData);
    ServiceChecks();
    ProcessChecks(opts);
  }

  /** Whether a map holds none of the names `load()` reads specially. */
  predicate NoReadNames(d: map<string, Value>) {
    "_section" !in d && "_parser" !in d && "parse" !in d && "splitlist" !in d
  }

  lemma KeyedReads(devData: Option<string>)
    ensures NoReadNames(KeyedDefaults(devData))
  {
  }

  lemma KeyedChecks(devData: Option<string>)
    ensures !HidesCheck(KeyedDefaults(devData))
  {
  }

  lemma ServiceReads()
    ensures NoReadNames(ServiceDefaults)
  {
  }

  lemma ServiceChecks()
    ensures !HidesCheck(ServiceDefaults)
  {
  }

  lemma ProcessReads(opts: LaunchOptions)
    ensures var d := ProcessDefaults(opts);
      "_section" in d && d["_section"] == Str(Section) && "_parser" !in d && "parse" !in d && "splitlist" !in d
  {
    ProcessLacks(opts, "_parser");
    ProcessLacks(opts, "parse");
    ProcessLacks(opts, "splitlist");
  }

  /** The process defaults hold no name `load()` reads specially but `_section`. */
  lemma ProcessLacks(opts: LaunchOptions, n: string)
    requires n == "_parser" || n == "parse" || n == "splitlist"
    ensures n !in ProcessDefaults(opts)
  {
  }

  lemma ProcessChecks(opts: LaunchOptions)
    ensures !HidesCheck(ProcessDefaults(opts))
  {
  }

  /** The name the parser files an option under: lower-cased. */
  function OptionName(e: (string, string)): string {
    Lower(e.0)
  }

  function Names(entries: seq<(string, string)>): (r: set<string>)
    ensures forall i :: 0 <= i < |entries| ==> OptionName(entries[i]) in r
    ensures forall k :: k in r ==> exists i :: 0 <= i < |entries| && OptionName(entries[i]) == k
  {
    set i | 0 <= i < |entries| :: OptionName(entries[i])
  }

  /** No option of the section is given twice (the parser refuses duplicates). */
  predicate DistinctNames(entries: seq<(string, string)>) {
    forall i, j :: 0 <= i < j < |entries| ==> OptionName(entries[i]) != OptionName(entries[j])
  }

  /** `self.__dict__[name] = self.parse(name)` for every option of the section,
      in order, with `read` the coercion of the text (`Coerce` when loading). */
  function Merge(store: map<string, Value>, entries: seq<(string, string)>, read: string -> Value): (r: map<string, Value>)
    decreases |entries|
    ensures r.Keys == store.Keys + Names(entries)
    ensures forall k :: k in store && k !in Names(entries) ==> r[k] == store[k]
  {
    if |entries| == 0 then store
    else
      var e := entries[0];
      NamesCons(entries);
      Merge(store[OptionName(e) := read(e.1)], entries[1..], read)
  }

  lemma NamesCons(entries: seq<(string, string)>)
    requires |entries| > 0
    ensures Names(entries) == {OptionName(entries[0])} + Names(entries[1..])
  {
    assert forall i :: 1 <= i < |entries| ==> entries[i] == entries[1..][i - 1];
  }

  /** Merging a non-empty section is merging its first option and then the rest. */
  lemma MergeStep(store: map<string, Value>, entries: seq<(string, string)>, read: string -> Value)
    requires |entries| > 0
    ensures Merge(store, entries, read) == Merge(store[OptionName(entries[0]) := read(entries[0].1)], entries[1..], read)
  {
  }

  /** Without duplicates, the first name does not recur and the rest has no
      duplicates either. */
  lemma DistinctTail(entries: seq<(string, string)>)
    requires DistinctNames(entries) && |entries| > 0
    ensures DistinctNames(entries[1..])
    ensures OptionName(entries[0]) !in Names(entries[1..])
  {
    var rest := entries[1..];
    assert forall j :: 0 <= j < |rest| ==> rest[j] == entries[j + 1];
  }

  /** With distinct names, every option ends up holding its own coerced text. */
  lemma {:induction false} MergeEntry(store: map<string, Value>, entries: seq<(string, string)>, read: string -> Value, i: nat)
    requires DistinctNames(entries) && i < |entries|
    ensures Merge(store, entries, read)[OptionName(entries[i])] == read(entries[i].1)
    decreases i, 1
  {
    if i == 0 {
      MergeFirst(store, entries, read);
    } else {
      MergeLater(store, entries, read, i);
    }
  }

  /** An option after the first keeps its value: it is merged into the rest. */
  lemma {:induction false} MergeLater(store: map<string, Value>, entries: seq<(string, string)>, read: string -> Value, i: nat)
    requires DistinctNames(entries) && 0 < i < |entries|
    ensures Merge(store, entries, read)[OptionName(entries[i])] == read(entries[i].1)
    decreases i, 0
  {
    var rest := entries[1..];
    var store' := store[OptionName(entries[0]) := read(entries[0].1)];
    assert Merge(store', rest, read)[OptionName(entries[i])] == read(entries[i].1) by {
      DistinctTail(entries);
      MergeEntry(store', rest, read, i - 1);
      assert rest[i - 1] == entries[i];
    }
    MergeStep(store, entries, read);
  }

  /** The first option keeps its value when no later one shares its name. */
  lemma MergeFirst(store: map<string, Value>, entries: seq<(string, string)>, read: string -> Value)
    requires DistinctNames(entries) && |entries| > 0
    ensures Merge(store, entries, read)[OptionName(entries[0])] == read(entries[0].1)
  {
    var n := OptionName(entries[0]);
    var store' := store[n := read(entries[0].1)];
    MergeStep(store, entries, read);
    DistinctTail(entries);
    assert n in store' && n !in Names(entries[1..]);
  }

  /** The parser's view of the section: each option's raw text by name. */
  function ParserOptions(entries: seq<(string, string)>): (r: map<string, string>)
    ensures r.Keys == Names(entries)
  {
    if |entries| == 0 then map[]
    else
      NamesCons(entries);
      ParserOptions(entries[1..])[OptionName(entries[0]) := entries[0].1]
  }

  /** With distinct names, the parser holds each option's own raw text. */
  lemma {:induction false} ParserOptionsEntry(entries: seq<(string, string)>, i: nat)
    requires DistinctNames(entries) && i < |entries|
    ensures ParserOptions(entries)[OptionName(entries[i])] == entries[i].1
  {
    if i > 0 {
      DistinctTail(entries);
      ParserOptionsEntry(entries[1..], i - 1);
      assert entries[1..][i - 1] == entries[i];
      assert OptionName(entries[0]) != OptionName(entries[i]);
    }
  }

  /** The name configparser gives its defaults section. The model's files
      have no defaults, so a lookup there always answers `NoOptionError`. */
  const DefaultSection: string := "DEFAULT"

  /** The text a section gives for `name` (the first, should it repeat). */
  function Lookup(entries: seq<(string, string)>, name: string): (r: Option<string>)
    ensures r.None? <==> name !in Names(entries)
    ensures r.Some? ==> exists i :: 0 <= i < |entries| && OptionName(entries[i]) == name && entries[i].1 == r.value
  {
    if |entries| == 0 then None
    else
      NamesCons(entries);
      if OptionName(entries[0]) == name then Some(entries[0].1)
      else
        var r := Lookup(entries[1..], name);
        assert r.Some? ==> exists i :: 1 <= i < |entries| && OptionName(entries[i]) == name && entries[i].1 == r.value by {
          if r.Some? {
            var j :| 0 <= j < |entries| - 1 && OptionName(entries[1..][j]) == name && entries[1..][j].1 == r.value;
            assert entries[j + 1] == entries[1..][j];
          }
        }
        r
  }

  /** The attribute `_section` as `parse` reads it: `None` when unset. */
  function CurrentSection(store: map<string, Value>): Value {
    if "_section" in store then store["_section"] else Null
  }

  /** The attributes `load()` starts from: `_section` is `main`, the
      attribute `_parser` still holds the option parser, and the methods
      `parse` and `splitlist` are not hidden. The model keeps the parser
      outside the dictionary, so a `_parser` key means it was replaced. An
      entry of the dictionary named after a method hides the method, since
      a method is found on the class only after the instance's dictionary;
      calling the stored value raises `TypeError`. */
  predicate Ordinary(store: map<string, Value>) {
    && CurrentSection(store) == Str(Section) && "_parser" !in store
    && "parse" !in store && "splitlist" !in store
  }

  /** The dictionary hides a method `verify_config_is_sane` calls. */
  predicate HidesCheck(store: map<string, Value>) {
    "verify_config_is_sane" in store || "verify_values" in store
  }

  /** An option that changes how the options after it are read: `_parser`,
      `parse`, `splitlist`, or a `_section` naming another section than
      `main`. */
  predicate Steers(e: (string, string)) {
    || OptionName(e) == "_parser" || OptionName(e) == "parse" || OptionName(e) == "splitlist"
    || (OptionName(e) == "_section" && Coerce(e.1) != Str(Section))
  }

  /** A steering option `e` after which the option `next` cannot be read:
      `e` replaced the parser, hid `parse`, hid `splitlist` when `next` has
      list text, or named a section `get` cannot reach. */
  predicate Breaks(sections: map<string, seq<(string, string)>>, e: (string, string), next: (string, string)) {
    || OptionName(e) == "_parser" || OptionName(e) == "parse"
    || (OptionName(e) == "splitlist" && Coerce(next.1).List?)
    || (OptionName(e) == "_section" && Coerce(e.1) != Str(Section) && !Reachable(sections, Coerce(e.1)))
  }

  /** No option but possibly the last one steers. */
  predicate Unsteered(entries: seq<(string, string)>) {
    forall i :: 0 <= i < |entries| - 1 ==> !Steers(entries[i])
  }

  /** A value `get` accepts as a section without raising: the name of one of
      the file's sections, or of the defaults. */
  predicate Reachable(sections: map<string, seq<(string, string)>>, v: Value) {
    v.Str? && (v.s == DefaultSection || v.s in sections)
  }

  /** `self.parse(name)` for the option `e` of `main` with the attributes as
      they stand: the value it returns, or `None` when it raises. A hidden
      `parse` is not callable (`TypeError`). A replaced parser has no `get`
      (`AttributeError`). In `main` the option's own text is found. A section
      the file does not have raises `NoSectionError`, and a `_section` that
      is not a string raises too (`NoSectionError`, or `TypeError` for an
      unhashable list). Text that reaches the list rule calls `splitlist`,
      which raises when hidden. */
  function ParseOption(store: map<string, Value>, sections: map<string, seq<(string, string)>>, e: (string, string)): (r: Option<Value>)
    ensures r.Some? ==> "parse" !in store && "_parser" !in store
    ensures r.Some? ==> CurrentSection(store) == Str(Section) || Reachable(sections, CurrentSection(store))
    ensures r.Some? && "splitlist" in store ==> !r.value.List?
    ensures ("parse" !in store && "_parser" !in store && "splitlist" !in store
      && (CurrentSection(store) == Str(Section) || Reachable(sections, CurrentSection(store)))) ==> r.Some?
    ensures "parse" !in store && "_parser" !in store && CurrentSection(store) == Str(Section) ==>
      (r.None? <==> "splitlist" in store && Coerce(e.1).List?) && (r.Some? ==> r.value == Coerce(e.1))
    ensures Ordinary(store) ==> r == Some(Coerce(e.1))
  {
    if "parse" in store || "_parser" in store then None
    else
      var found :=
        match CurrentSection(store)
        case Str(s) =>
          if s == Section then Some(Coerce(e.1))
          else if s == DefaultSection then Some(Null)
          else if s in sections then Some(Parse(Lookup(sections[s], OptionName(e))))
          else None
        case _ => None;
      if found.Some? && found.value.List? && "splitlist" in store then None else found
  }

  /** The loop of `load()`: each option of `main`, in file order, is parsed
      and stored before the next one is parsed, so an option named `_section`
      or `_parser` changes how the options after it are read. `None` when a
      parse raises. */
  function ReadSection(store: map<string, Value>, sections: map<string, seq<(string, string)>>, entries: seq<(string, string)>): (r: Option<map<string, Value>>)
    decreases |entries|
    ensures r.Some? ==> r.value.Keys == store.Keys + Names(entries)
    ensures r.Some? ==> forall k :: k in store && k !in Names(entries) ==> r.value[k] == store[k]
    ensures ("_parser" in store || "parse" in store) && |entries| > 0 ==> r.None?
  {
    if |entries| == 0 then Some(store)
    else
      var e := entries[0];
      NamesCons(entries);
      match ParseOption(store, sections, e)
      case None => None
      case Some(v) => ReadSection(store[OptionName(e) := v], sections, entries[1..])
  }

  /** From ordinary attributes the first option is read from `main`. */
  lemma ReadFirst(store: map<string, Value>, sections: map<string, seq<(string, string)>>, entries: seq<(string, string)>)
    requires Ordinary(store) && |entries| > 0
    ensures ReadSection(store, sections, entries) ==
      ReadSection(store[OptionName(entries[0]) := Coerce(entries[0].1)], sections, entries[1..])
  {
  }

  /** An option that does not steer keeps the attributes ordinary. */
  lemma OrdinaryStep(store: map<string, Value>, e: (string, string))
    requires Ordinary(store) && !Steers(e)
    ensures Ordinary(store[OptionName(e) := Coerce(e.1)])
  {
  }

  /** When no option before the last steers, reading the section is laying
      each option's coerced text over the dictionary. */
  lemma {:induction false} ReadPlain(store: map<string, Value>, sections: map<string, seq<(string, string)>>, entries: seq<(string, string)>)
    requires Ordinary(store) && Unsteered(entries)
    decreases |entries|
    ensures ReadSection(store, sections, entries) == Some(Merge(store, entries, Coerce))
  {
    if |entries| > 0 {
      var store' := store[OptionName(entries[0]) := Coerce(entries[0].1)];
      assert ReadSection(store', sections, entries[1..]) == Some(Merge(store', entries[1..], Coerce)) by {
        if |entries| > 1 {
          NoSteerTail(entries, |entries| - 1);
          OrdinaryStep(store, entries[0]);
          ReadPlain(store', sections, entries[1..]);
        } else {
          assert entries[1..] == [];
        }
      }
      ReadFirst(store, sections, entries);
      MergeStep(store, entries, Coerce);
    }
  }

  /** Past an option that does not steer, the options before `k` in the
      rest steer no more than they did. */
  lemma NoSteerTail(entries: seq<(string, string)>, k: nat)
    requires 0 < k < |entries|
    requires forall i :: 0 <= i < k ==> !Steers(entries[i])
    ensures !Steers(entries[0])
    ensures forall i :: 0 <= i < k - 1 ==> !Steers(entries[1..][i])
    ensures entries[1..][k - 1] == entries[k]
  {
    assert forall i :: 0 <= i < k - 1 ==> entries[1..][i] == entries[i + 1];
  }

  /** Reading stops with an error at the option after the first steering one
      when that one breaks it. */
  lemma {:induction false} ReadStops(store: map<string, Value>, sections: map<string, seq<(string, string)>>, entries: seq<(string, string)>, k: nat)
    requires Ordinary(store) && k + 1 < |entries|
    requires forall i :: 0 <= i < k ==> !Steers(entries[i])
    requires Breaks(sections, entries[k], entries[k + 1])
    decreases k
    ensures ReadSection(store, sections, entries) == None
  {
    var store' := store[OptionName(entries[0]) := Coerce(entries[0].1)];
    if k > 0 {
      assert ReadSection(store', sections, entries[1..]) == None by {
        NoSteerTail(entries, k);
        OrdinaryStep(store, entries[0]);
        assert entries[1..][k] == entries[k + 1];
        ReadStops(store', sections, entries[1..], k - 1);
      }
      ReadFirst(store, sections, entries);
    } else {
      StopAfterFirst(store, sections, entries);
    }
  }

  /** The option after a first option that breaks the read raises. */
  lemma StopAfterFirst(store: map<string, Value>, sections: map<string, seq<(string, string)>>, entries: seq<(string, string)>)
    requires Ordinary(store) && 1 < |entries| && Breaks(sections, entries[0], entries[1])
    ensures ReadSection(store, sections, entries) == None
  {
    ReadFirst(store, sections, entries);
    ParseBroken(store, sections, entries[0], entries[1]);
    assert entries[1..][0] == entries[1];
  }

  /** After an option that breaks the read, the next option cannot be
      parsed. */
  lemma ParseBroken(store: map<string, Value>, sections: map<string, seq<(string, string)>>, e: (string, string), next: (string, string))
    requires Ordinary(store) && Breaks(sections, e, next)
    ensures ParseOption(store[OptionName(e) := Coerce(e.1)], sections, next) == None
  {
    var n := OptionName(e);
    if n == "_parser" || n == "parse" {
      ParseHidden(store[n := Coerce(e.1)], sections, n, next);
    } else if n == "splitlist" {
      SplitListHidden(store, sections, Coerce(e.1), next);
    } else {
      SectionUnreachable(store, sections, Coerce(e.1), next);
    }
  }

  lemma ParseHidden(store: map<string, Value>, sections: map<string, seq<(string, string)>>, n: string, next: (string, string))
    requires n in store && (n == "_parser" || n == "parse")
    ensures ParseOption(store, sections, next) == None
  {
  }

  lemma SplitListHidden(store: map<string, Value>, sections: map<string, seq<(string, string)>>, v: Value, next: (string, string))
    requires Ordinary(store) && Coerce(next.1).List?
    ensures ParseOption(store["splitlist" := v], sections, next) == None
  {
    var store' := store["splitlist" := v];
    assert "parse" !in store' && "_parser" !in store';
    assert CurrentSection(store') == Str(Section);
  }

  lemma SectionUnreachable(store: map<string, Value>, sections: map<string, seq<(string, string)>>, v: Value, next: (string, string))
    requires Ordinary(store) && v != Str(Section) && !Reachable(sections, v)
    ensures ParseOption(store["_section" := v], sections, next) == None
  {
    var store' := store["_section" := v];
    assert "parse" !in store' && "_parser" !in store';
    assert CurrentSection(store') == v;
  }

  /** Up to the first steering option every option is read from `main`, so
      it ends up holding its own coerced text. */
  lemma {:induction false} ReadEntry(store: map<string, Value>, sections: map<string, seq<(string, string)>>, entries: seq<(string, string)>, i: nat)
    requires Ordinary(store) && DistinctNames(entries) && i < |entries|
    requires forall j :: 0 <= j < i ==> !Steers(entries[j])
    decreases i
    ensures var r := ReadSection(store, sections, entries);
      r.Some? ==> r.value[OptionName(entries[i])] == Coerce(entries[i].1)
  {
    var store' := store[OptionName(entries[0]) := Coerce(entries[0].1)];
    ReadFirst(store, sections, entries);
    DistinctTail(entries);
    if i > 0 {
      NoSteerTail(entries, i);
      OrdinaryStep(store, entries[0]);
      ReadEntry(store', sections, entries[1..], i - 1);
    }
  }

  /** After `_section = s`, with nothing steering before it, the next option
      is read from section `s` of the file: its text there, or `None` when
      `s` lacks it or is the defaults section. A successful read implies that
      `get` could reach `s`. */
  lemma {:induction false} ReadRedirected(store: map<string, Value>, sections: map<string, seq<(string, string)>>, entries: seq<(string, string)>, k: nat)
    requires Ordinary(store) && DistinctNames(entries)
    requires k + 1 < |entries| && OptionName(entries[k]) == "_section"
    requires forall i :: 0 <= i < k ==> !Steers(entries[i])
    decreases k
    ensures var r := ReadSection(store, sections, entries);
      var v := Coerce(entries[k].1);
      var n := OptionName(entries[k + 1]);
      r.Some? && v != Str(Section) ==>
        && Reachable(sections, v)
        && r.value[n] == (if v.s != DefaultSection && v.s in sections then Parse(Lookup(sections[v.s], n)) else Null)
  {
    var store' := store[OptionName(entries[0]) := Coerce(entries[0].1)];
    ReadFirst(store, sections, entries);
    DistinctTail(entries);
    if k > 0 {
      NoSteerTail(entries, k);
      OrdinaryStep(store, entries[0]);
      ReadRedirected(store', sections, entries[1..], k - 1);
      assert entries[1..][k] == entries[k + 1];
    } else if Coerce(entries[0].1) != Str(Section) {
      RedirectedNext(store', sections, entries[1..]);
    }
  }

  /** The option read right after the section was switched away from `main`
      keeps the value read for it. */
  lemma RedirectedNext(store: map<string, Value>, sections: map<string, seq<(string, string)>>, entries: seq<(string, string)>)
    requires |entries| > 0 && "_parser" !in store && "parse" !in store && "splitlist" !in store
    requires CurrentSection(store) != Str(Section)
    requires DistinctNames(entries)
    ensures var r := ReadSection(store, sections, entries); var v := CurrentSection(store); var n := OptionName(entries[0]);
      r.Some? ==>
        && Reachable(sections, v)
        && r.value[n] == (if v.s != DefaultSection && v.s in sections then Parse(Lookup(sections[v.s], n)) else Null)
  {
    DistinctTail(entries);
  }

  /** The TLS settings given a default file under `datadir` when left unset,
      in the order they are filled. */
  const CertFiles: seq<(string, string)> := [
    ("ssl_key", "certs/tor2web-key.pem"),
    ("ssl_cert", "certs/tor2web-cert.pem"),
    ("ssl_intermediate", "certs/tor2web-intermediate.pem"),
    ("ssl_dh", "certs/tor2web-dh.pem")
  ]

  predicate IsCertKey(certs: seq<(string, string)>, k: string) {
    exists i :: 0 <= i < |certs| && certs[i].0 == k
  }

  /** Fills each unset (`None`) setting of `certs` with its file joined onto
      `datadir`; joining onto a `datadir` that is not a string raises. */
  function FillCerts(store: map<string, Value>, certs: seq<(string, string)>): (r: Result<map<string, Value>, PathError>)
    requires "datadir" in store
    requires forall i :: 0 <= i < |certs| ==> certs[i].0 in store && certs[i].0 != "datadir"
    requires forall i, j :: 0 <= i < j < |certs| ==> certs[i].0 != certs[j].0
    ensures r.Success? <==> store["datadir"].Str? || forall i :: 0 <= i < |certs| ==> store[certs[i].0] != Null
    ensures r.Failure? ==> r.error == NotAString("datadir", store["datadir"])
    ensures r.Success? ==> r.value.Keys == store.Keys
    ensures r.Success? ==> forall k :: k in store && !IsCertKey(certs, k) ==> r.value[k] == store[k]
    ensures r.Success? ==> forall i :: 0 <= i < |certs| ==>
      r.value[certs[i].0] == (if store[certs[i].0] == Null then Str(Join(store["datadir"].s, certs[i].1)) else store[certs[i].0])
  {
    if |certs| == 0 then Success(store)
    else
      var key := certs[0].0;
      var rest := certs[1..];
      assert forall i :: 1 <= i < |certs| ==> certs[i] == rest[i - 1];
      if store[key] == Null then
        if store["datadir"].Str? then
          FillCerts(store[key := Str(Join(store["datadir"].s, certs[0].1))], rest)
        else Failure(NotAString("datadir", store["datadir"]))
      else FillCerts(store, rest)
  }

  /** The settings the last loading steps read by name are present. */
  predicate HasLoadKeys(store: map<string, Value>) {
    && "datadir" in store && "extra_http_response_headers" in store
    && "ssl_key" in store && "ssl_cert" in store && "ssl_intermediate" in store && "ssl_dh" in store
  }

  lemma CertKeysDistinct()
    ensures forall i, j :: 0 <= i < j < |CertFiles| ==> CertFiles[i].0 != CertFiles[j].0
    ensures forall i :: 0 <= i < |CertFiles| ==> CertFiles[i].0 != "datadir"
  {
  }

  /** The four TLS settings still `None` after loading get their default
      file under `datadir`. */
  function CertDefaults(store: map<string, Value>): (r: Result<map<string, Value>, PathError>)
    requires HasLoadKeys(store)
    ensures r.Success? <==>
      (store["datadir"].Str? || forall i :: 0 <= i < |CertFiles| ==> store[CertFiles[i].0] != Null)
    ensures r.Failure? ==> r.error == NotAString("datadir", store["datadir"])
    ensures r.Success? ==> r.value.Keys == store.Keys
    ensures r.Success? ==> forall k :: k in store && !IsCertKey(CertFiles, k) ==> r.value[k] == store[k]
    ensures r.Success? ==> forall i :: 0 <= i < |CertFiles| ==>
      r.value[CertFiles[i].0] ==
        (if store[CertFiles[i].0] == Null then Str(Join(store["datadir"].s, CertFiles[i].1)) else store[CertFiles[i].0])
  {
    CertKeysDistinct();
    FillCerts(store, CertFiles)
  }

  /** Why building the configuration failed. */
  datatype StartupError =
    | CannotOpen(path: string)             // the file is missing, not a file or unreadable
    | InvalidConfig(path: string)          // reading or loading the file raised
    | Insane(violation: ValidationError)   // `verify_config_is_sane` failed
    | BadDataDir(cause: PathError)         // a certificate path could not be composed
    | Uncallable(hidden: string)           // a setting hides a method `load()` calls outside its `try`

  /** What the parser made of the configuration file: nothing usable
      (a syntax error, a repeated section), or its sections by name, each the
      options in file order with their raw text. */
  datatype FileContent = Malformed | Parsed(sections: map<string, seq<(string, string)>>)

  /** The configuration file: whether it exists as a readable regular file,
      and its content. */
  datatype ConfigFile = ConfigFile(accessible: bool, content: FileContent)

  /** A file the parser reads without raising: accessible, parsed, with a
      `main` section, and no option given twice in a section. */
  predicate Readable(file: ConfigFile) {
    && file.accessible && file.content.Parsed? && Section in file.content.sections
    && forall s :: s in file.content.sections ==> DistinctNames(file.content.sections[s])
  }

  /** The end of `load()`, once the section is in the dictionary: the header
      conversion (which raises for any value that is set, since no value read
      from the file has `items()`) and `verify_config_is_sane`. The call
      `self.verify_config_is_sane()`, and its calls of `self.verify_values`,
      raise `TypeError` when a setting hides the method; that call is outside
      the `try`, so the error is not reported as an invalid file. */
  function CheckLoaded(path: string, store: map<string, Value>, parser: Parser): (r: Result<Config, StartupError>)
    requires "extra_http_response_headers" in store
    ensures Truthy(store["extra_http_response_headers"]) ==> r == Failure(InvalidConfig(path))
    ensures !Truthy(store["extra_http_response_headers"]) && HidesCheck(store) ==>
      r.Failure? && r.error.Uncallable? && r.error.hidden in store
      && (r.error.hidden == "verify_config_is_sane" || r.error.hidden == "verify_values")
    ensures !Truthy(store["extra_http_response_headers"]) && !HidesCheck(store) ==>
      (r.Success? <==> VerifyConfigIsSane(store).Pass?)
    ensures !Truthy(store["extra_http_response_headers"]) && !HidesCheck(store) && VerifyConfigIsSane(store).Fail? ==>
      r == Failure(Insane(VerifyConfigIsSane(store).error))
    ensures r.Success? ==> r.value == Config(store, parser) && !HidesCheck(store) && VerifyConfigIsSane(store).Pass?
  {
    if Truthy(GetAttr(Config(store, parser), "extra_http_response_headers")) then
      Failure(InvalidConfig(path))
    else if "verify_config_is_sane" in store then
      Failure(Uncallable("verify_config_is_sane"))
    else if "verify_values" in store then
      Failure(Uncallable("verify_values"))
    else
      match VerifyConfigIsSane(store)
      case Fail(e) => Failure(Insane(e))
      case Pass => Success(Config(store, parser))
  }

  /** `load()` on the dictionary `store`: the access check; reading the file,
      where a malformed file, a missing `main` section or a repeated option
      raises inside the `try` and is reported as an invalid file; reading the
      options of `main` into the dictionary, where a raising parse is
      reported the same way; then `CheckLoaded`. */
  function Load(store: map<string, Value>, path: string, file: ConfigFile): (r: Result<Config, StartupError>)
    requires "extra_http_response_headers" in store && Ordinary(store)
    ensures !file.accessible ==> r == Failure(CannotOpen(path))
    ensures file.accessible && !Readable(file) ==> r == Failure(InvalidConfig(path))
    ensures r.Success? ==> Readable(file) && store.Keys <= r.value.store.Keys
    ensures Readable(file) ==>
      var sections := file.content.sections;
      var entries := sections[Section];
      && (ReadSection(store, sections, entries).None? ==> r == Failure(InvalidConfig(path)))
      && (ReadSection(store, sections, entries).Some? ==>
            r == CheckLoaded(path, ReadSection(store, sections, entries).value, Parser(ParserOptions(entries), {})))
    ensures Readable(file) && Unsteered(file.content.sections[Section]) ==>
      var entries := file.content.sections[Section];
      r == CheckLoaded(path, Merge(store, entries, Coerce), Parser(ParserOptions(entries), {}))
  {
    if !file.accessible || !Readable(file) then
      if !file.accessible then Failure(CannotOpen(path)) else Failure(InvalidConfig(path))
    else
      var sections := file.content.sections;
      var entries := sections[Section];
      assert Unsteered(entries) ==> ReadSection(store, sections, entries) == Some(Merge(store, entries, Coerce)) by {
        if Unsteered(entries) {
          ReadPlain(store, sections, entries);
        }
      }
      match ReadSection(store, sections, entries)
      case None => Failure(InvalidConfig(path))
      case Some(s) => CheckLoaded(path, s, Parser(ParserOptions(entries), {}))
  }

  /** `Config()` from the dictionary `store` of built-in settings: `load()`,
      then the certificate defaults. */
  function Build(store: map<string, Value>, path: string, file: ConfigFile): (r: Result<Config, StartupError>)
    requires HasLoadKeys(store) && Ordinary(store)
    ensures Load(store, path, file).Failure? ==> r == Failure(Load(store, path, file).error)
    ensures r.Success? ==>
      && Load(store, path, file).Success?
      && HasLoadKeys(Load(store, path, file).value.store)
      && CertDefaults(Load(store, path, file).value.store) == Success(r.value.store)
      && r.value.parser == Load(store, path, file).value.parser
    ensures Load(store, path, file).Success? && HasLoadKeys(Load(store, path, file).value.store) ==>
      (r.Success? <==> CertDefaults(Load(store, path, file).value.store).Success?)
  {
    match Load(store, path, file)
    case Failure(e) => Failure(e)
    case Success(c) =>
      match CertDefaults(c.store)
      case Failure(e) => Failure(BadDataDir(e))
      case Success(s) => Success(Config(s, c.parser))
  }

  /** `Config()`: the built-in defaults, then `Build`. */
  function Construct(opts: LaunchOptions, devData: Option<string>, file: ConfigFile): (r: Result<Config, StartupError>)
    ensures !file.accessible ==> r == Failure(CannotOpen(opts.configfile))
    ensures file.accessible && !Readable(file) ==> r == Failure(InvalidConfig(opts.configfile))
  {
    DefaultKeys(opts, devData);
    DefaultsOrdinary(opts, devData);
    Build(Defaults(opts, devData), opts.configfile, file)
  }

  /** The four TLS settings are exactly the keys of `CertFiles`. */
  lemma CertKeys()
    ensures forall k :: IsCertKey(CertFiles, k) <==> k in {"ssl_key", "ssl_cert", "ssl_intermediate", "ssl_dh"}
  {
    forall k | k in {"ssl_key", "ssl_cert", "ssl_intermediate", "ssl_dh"}
      ensures IsCertKey(CertFiles, k)
    {
      if k == "ssl_key" { assert CertFiles[0].0 == k; }
      else if k == "ssl_cert" { assert CertFiles[1].0 == k; }
      else if k == "ssl_intermediate" { assert CertFiles[2].0 == k; }
      else { assert CertFiles[3].0 == k; }
    }
  }

  /** None of the settings `verify_config_is_sane` checks is a TLS setting. */
  lemma ChecksNotCerts()
    ensures forall i :: 0 <= i < |SaneChecks| ==> !IsCertKey(CertFiles, SaneChecks[i].key)
  {
    CertKeys();
  }

  /** The certificate step touches none of the checked settings, so it keeps a
      sane dictionary sane. */
  lemma CertsKeepSane(store: map<string, Value>)
    requires HasLoadKeys(store) && VerifyConfigIsSane(store).Pass? && CertDefaults(store).Success?
    ensures Sane(CertDefaults(store).value)
  {
    var s := CertDefaults(store).value;
    assert VerifyConfigIsSane(s) == VerifyConfigIsSane(store) by {
      ChecksNotCerts();
      VerifyAllLocal(s, store, SaneChecks);
    }
    VerifyConfigIsSaneCorrect(s);
  }

  /** A dictionary `load()` accepts passed `verify_config_is_sane`. */
  lemma LoadChecked(store: map<string, Value>, path: string, file: ConfigFile)
    requires "extra_http_response_headers" in store && Ordinary(store)
    ensures Load(store, path, file).Success? ==> VerifyConfigIsSane(Load(store, path, file).value.store).Pass?
  {
    if Load(store, path, file).Success? {
      var sections := file.content.sections;
      var entries := sections[Section];
      var m := ReadSection(store, sections, entries).value;
      assert Load(store, path, file) == CheckLoaded(path, m, Parser(ParserOptions(entries), {}));
    }
  }

  /** Every configuration that is built passes `verify_config_is_sane`, whatever
      the built-in settings were. */
  lemma BuildSane(store: map<string, Value>, path: string, file: ConfigFile)
    requires HasLoadKeys(store) && Ordinary(store)
    ensures Build(store, path, file).Success? ==> Sane(Build(store, path, file).value.store)
  {
    if Build(store, path, file).Success? {
      LoadChecked(store, path, file);
      CertsKeepSane(Load(store, path, file).value.store);
    }
  }

  /** After the certificate step a TLS setting is set: one that was unset
      holds its default file under `datadir`. */
  lemma CertFilled(store: map<string, Value>, i: nat)
    requires HasLoadKeys(store) && CertDefaults(store).Success? && i < |CertFiles|
    ensures var s := CertDefaults(store).value; var k := CertFiles[i].0;
      && k in s && s[k] != Null
      && (store[k] == Null ==> store["datadir"].Str? && s[k] == Str(Join(store["datadir"].s, CertFiles[i].1)))
  {
    var k := CertFiles[i].0;
    CertKeysPresent(store);
    assert IsCertKey(CertFiles, k);
    if store[k] == Null {
      assert store["datadir"].Str? by {
        assert store[CertFiles[i].0] == Null;
      }
    }
  }

  lemma CertKeysPresent(store: map<string, Value>)
    requires HasLoadKeys(store)
    ensures forall i :: 0 <= i < |CertFiles| ==> CertFiles[i].0 in store
  {
  }

  /** A configuration that was built has every TLS setting set: one that
      `load()` left unset holds its default file under `datadir`. */
  lemma BuildCerts(store: map<string, Value>, path: string, file: ConfigFile, i: nat)
    requires HasLoadKeys(store) && Ordinary(store) && i < |CertFiles|
    ensures var r := Build(store, path, file); var k := CertFiles[i].0;
      r.Success? ==>
        var loaded := Load(store, path, file).value.store;
        && k in r.value.store && r.value.store[k] != Null
        && (loaded[k] == Null ==> loaded["datadir"].Str? && r.value.store[k] == Str(Join(loaded["datadir"].s, CertFiles[i].1)))
  {
    if Build(store, path, file).Success? {
      CertFilled(Load(store, path, file).value.store, i);
    }
  }

  /** Every option of `main` up to the first steering one holds its coerced
      text in the configuration built from it, unless it is a TLS setting. */
  lemma BuildReadsFile(store: map<string, Value>, path: string, sections: map<string, seq<(string, string)>>, i: nat)
    requires HasLoadKeys(store) && Ordinary(store)
    requires Section in sections && i < |sections[Section]|
    requires !IsCertKey(CertFiles, OptionName(sections[Section][i]))
    ensures var entries := sections[Section];
      var r := Build(store, path, ConfigFile(true, Parsed(sections)));
      r.Success? && (forall j :: 0 <= j < i ==> !Steers(entries[j])) ==>
        OptionName(entries[i]) in r.value.store && r.value.store[OptionName(entries[i])] == Coerce(entries[i].1)
  {
    var file := ConfigFile(true, Parsed(sections));
    var entries := sections[Section];
    if Build(store, path, file).Success? && forall j :: 0 <= j < i ==> !Steers(entries[j]) {
      ReadEntry(store, sections, entries, i);
      assert Load(store, path, file).value.store == ReadSection(store, sections, entries).value;
    }
  }

  /** A setting `main` does not name keeps its built-in value (the TLS
      settings aside), whatever the section steers. */
  lemma BuildKeepsSetting(store: map<string, Value>, path: string, file: ConfigFile, k: string)
    requires HasLoadKeys(store) && Ordinary(store) && k in store && !IsCertKey(CertFiles, k)
    ensures var r := Build(store, path, file);
      r.Success? && k !in Names(file.content.sections[Section]) ==> k in r.value.store && r.value.store[k] == store[k]
  {
    if Build(store, path, file).Success? {
      var sections := file.content.sections;
      var entries := sections[Section];
      assert Load(store, path, file).value.store == ReadSection(store, sections, entries).value;
    }
  }

  /** In a configuration that was built the parser holds the raw text of
      every option of `main`, each option is also a setting, and the parser
      refuses no name. */
  lemma BuildMirrors(store: map<string, Value>, path: string, file: ConfigFile)
    requires HasLoadKeys(store) && Ordinary(store)
    ensures var r := Build(store, path, file);
      r.Success? ==>
        && Mirrored(r.value) && r.value.parser.refused == {}
        && var entries := file.content.sections[Section];
           forall i :: 0 <= i < |entries| ==> r.value.parser.options[OptionName(entries[i])] == entries[i].1
  {
    if Build(store, path, file).Success? {
      var sections := file.content.sections;
      var entries := sections[Section];
      var m := ReadSection(store, sections, entries).value;
      assert Load(store, path, file).value == Config(m, Parser(ParserOptions(entries), {}));
      forall i | 0 <= i < |entries|
        ensures ParserOptions(entries)[OptionName(entries[i])] == entries[i].1
      {
        ParserOptionsEntry(entries, i);
      }
    }
  }

  /** A `main` section that sets `extra_http_response_headers` to anything
      truthy, with no steering option before it, is an invalid configuration,
      whether or not it repeats an option. */
  lemma BuildRejectsHeaders(store: map<string, Value>, path: string, sections: map<string, seq<(string, string)>>, i: nat)
    requires HasLoadKeys(store) && Ordinary(store)
    ensures Section in sections && i < |sections[Section]| ==>
      var entries := sections[Section];
      OptionName(entries[i]) == "extra_http_response_headers" && Truthy(Coerce(entries[i].1))
      && (forall j :: 0 <= j < i ==> !Steers(entries[j])) ==>
        Build(store, path, ConfigFile(true, Parsed(sections))) == Failure(InvalidConfig(path))
  {
    var file := ConfigFile(true, Parsed(sections));
    if Readable(file) && i < |sections[Section]| && forall j :: 0 <= j < i ==> !Steers(sections[Section][j]) {
      ReadEntry(store, sections, sections[Section], i);
    }
  }

  /** `_section = other` before another option, in a file without a section
      `other`: reading that option raises, so the file is invalid. */
  lemma LoadForeignSection(store: map<string, Value>, path: string)
    requires "extra_http_response_headers" in store && Ordinary(store)
    ensures Load(store, path, ConfigFile(true, Parsed(map[Section := [("_section", "other"), ("x", "1")]])))
      == Failure(InvalidConfig(path))
  {
    var entries := [("_section", "other"), ("x", "1")];
    var sections := map[Section := entries];
    assert Coerce("other") == Str("other") by {
      OtherIsText();
    }
    assert OptionName(entries[0]) == "_section";
    ReadStops(store, sections, entries, 0);
  }

  /** `parse = 1` before another option: the setting hides the method, so
      reading the next option calls an integer and the file is invalid. */
  lemma LoadHiddenParse(store: map<string, Value>, path: string)
    requires "extra_http_response_headers" in store && Ordinary(store)
    ensures Load(store, path, ConfigFile(true, Parsed(map[Section := [("parse", "1"), ("x", "2")]])))
      == Failure(InvalidConfig(path))
  {
    var entries := [("parse", "1"), ("x", "2")];
    assert OptionName(entries[0]) == "parse";
    ReadStops(store, map[Section := entries], entries, 0);
  }

  /** `splitlist = x` before an option with list text: the text reaches the
      list rule, which calls the hidden method, so the file is invalid. */
  lemma LoadHiddenSplitList(store: map<string, Value>, path: string)
    requires "extra_http_response_headers" in store && Ordinary(store)
    ensures Load(store, path, ConfigFile(true, Parsed(map[Section := [("splitlist", "x"), ("y", "[1]")]])))
      == Failure(InvalidConfig(path))
  {
    var entries := [("splitlist", "x"), ("y", "[1]")];
    assert OptionName(entries[0]) == "splitlist";
    assert Coerce("[1]").List? by {
      StripTrimmed("[1]");
    }
    ReadStops(store, map[Section := entries], entries, 0);
  }

  /** `verify_config_is_sane = no`: the section is read, but the sanity check
      calls the stored text, and the `TypeError` escapes `load()`. */
  lemma LoadHiddenCheck(store: map<string, Value>, path: string)
    requires "extra_http_response_headers" in store && Ordinary(store)
    requires !Truthy(store["extra_http_response_headers"])
    ensures Load(store, path, ConfigFile(true, Parsed(map[Section := [("verify_config_is_sane", "no")]])))
      == Failure(Uncallable("verify_config_is_sane"))
  {
    var entries := [("verify_config_is_sane", "no")];
    assert OptionName(entries[0]) == "verify_config_is_sane";
    assert Unsteered(entries);
  }

  lemma OtherIsText()
    ensures Coerce("other") == Str("other")
  {
    StripTrimmed("other");
    assert !IsDigits("other") by {
      assert !IsDigit('o');
    }
    assert Lower("other") == "other";
  }

  /** `proto` is derived from the built-in transport before the file is read,
      so a file that sets `transport` but not `proto` keeps `https://`. */
  lemma ConstructProto(opts: LaunchOptions, devData: Option<string>, file: ConfigFile)
    ensures var r := Construct(opts, devData, file);
      r.Success? && "proto" !in Names(file.content.sections[Section]) ==> r.value.store["proto"] == Str("https://")
  {
    DefaultKeys(opts, devData);
    DefaultProto(opts, devData);
    ProtoNotCert();
    DefaultsOrdinary(opts, devData);
    BuildKeepsSetting(Defaults(opts, devData), opts.configfile, file, "proto");
  }

  lemma ProtoNotCert()
    ensures !IsCertKey(CertFiles, "proto")
  {
    CertKeys();
  }

  lemma DefaultProto(opts: LaunchOptions, devData: Option<string>)
    ensures "proto" in Defaults(opts, devData) && Defaults(opts, devData)["proto"] == Str("https://")
  {
    CheckedDefaults(devData);
    KeyedWins(opts, devData);
  }

  /** The default key file sits under the default data directory. */
  lemma DefaultKeyPath()
    ensures Join("/home/tor2web", "certs/tor2web-key.pem") == "/home/tor2web/certs/tor2web-key.pem"
  {
    var a := "/home/tor2web";
    assert !NeedsNoSeparator(a) by {
      assert a[|a| - 1] == 'b';
    }
  }

  /** A `main` section without options leaves a dictionary that passes the
      checks as it was. */
  lemma LoadEmpty(store: map<string, Value>, path: string)
    requires "extra_http_response_headers" in store && Ordinary(store)
    requires !Truthy(store["extra_http_response_headers"]) && !HidesCheck(store) && VerifyConfigIsSane(store).Pass?
    ensures Load(store, path, ConfigFile(true, Parsed(map[Section := []]))) == Success(Config(store, Parser(map[], {})))
  {
    var file := ConfigFile(true, Parsed(map[Section := []]));
    assert Readable(file);
    assert ReadSection(store, file.content.sections, []) == Some(store);
  }

  /** The defaults are ready for the last loading steps. */
  lemma DefaultsReady(opts: LaunchOptions, devData: Option<string>)
    ensures var d := Defaults(opts, devData);
      && HasLoadKeys(d) && Ordinary(d) && !HidesCheck(d) && !Truthy(d["extra_http_response_headers"])
      && d["datadir"] == Str("/home/tor2web") && d["ssl_key"] == Null
      && VerifyConfigIsSane(d).Pass?
  {
    DirDefaults(devData);
    UnsetDefaults(devData);
    KeyedWins(opts, devData);
    DefaultsSane(opts, devData);
    DefaultsOrdinary(opts, devData);
  }

  /** A `main` section without options builds: every setting keeps its
      default and the TLS settings point into `/home/tor2web/certs`. */
  lemma ConstructEmptySection(opts: LaunchOptions, devData: Option<string>)
    ensures var r := Construct(opts, devData, ConfigFile(true, Parsed(map[Section := []])));
      && r.Success?
      && r.value.store["ssl_key"] == Str("/home/tor2web/certs/tor2web-key.pem")
  {
    var d := Defaults(opts, devData);
    var file := ConfigFile(true, Parsed(map[Section := []]));
    DefaultsReady(opts, devData);
    LoadEmpty(d, opts.configfile);
    CertFilled(d, 0);
    DefaultKeyPath();
  }
}

=== FILE: text.dfy ===
/** Character-level helpers the configuration code borrows from Python's `str`:
    whitespace, `strip`, `lower`, `isdigit` and `int` on decimal digits.
    Only ASCII is modelled: whitespace is the ASCII part of `str.isspace`
    (which is also what the regular-expression class `\s` matches), digits are
    '0'..'9' and lower-casing maps 'A'..'Z' only. */
module Text {

  /** ASCII whitespace as Python sees it: space, tab, line feed, vertical tab,
      form feed, carriage return and the four separators 0x1C..0x1F. */
  predicate IsSpace(c: char) {
    c == ' ' || (9 <= c as int <= 13) || (28 <= c as int <= 31)
  }

  predicate AllSpace(s: string) {
    forall i :: 0 <= i < |s| ==> IsSpace(s[i])
  }

  /** The first index at or after `k` that does not hold whitespace (or `|t|`). */
  function SkipSpace(t: string, k: nat): (j: nat)
    requires k <= |t|
    decreases |t| - k
    ensures k <= j <= |t|
    ensures forall i :: k <= i < j ==> IsSpace(t[i])
    ensures j < |t| ==> !IsSpace(t[j])
  {
    if k < |t| && IsSpace(t[k]) then SkipSpace(t, k + 1) else k
  }

  /** A whitespace run from `k` stopped by a non-whitespace character (or by the
      end) is the one `SkipSpace` finds. */
  lemma SkipSpaceIs(t: string, k: nat, j: nat)
    requires k <= j <= |t|
    requires forall i :: k <= i < j ==> IsSpace(t[i])
    requires j < |t| ==> !IsSpace(t[j])
    ensures SkipSpace(t, k) == j
  {
  }

  /** Length of the maximal whitespace prefix of `t`. */
  function LeadingSpace(t: string): (n: nat)
    ensures n <= |t|
    ensures forall i :: 0 <= i < n ==> IsSpace(t[i])
    ensures n < |t| ==> !IsSpace(t[n])
  {
    SkipSpace(t, 0)
  }

  /** Length of the maximal whitespace suffix of `t`. */
  function TrailingSpace(t: string): (n: nat)
    ensures n <= |t|
    ensures forall i :: |t| - n <= i < |t| ==> IsSpace(t[i])
    ensures n < |t| ==> !IsSpace(t[|t| - n - 1])
  {
    if |t| > 0 && IsSpace(t[|t| - 1]) then 1 + TrailingSpace(t[..|t| - 1]) else 0
  }

  /** A prefix made of whitespace and stopped by a non-whitespace character
      (or by the end) is the maximal one. */
  lemma LeadingSpaceUnique(t: string, n: nat)
    requires n <= |t|
    requires forall i :: 0 <= i < n ==> IsSpace(t[i])
    requires n < |t| ==> !IsSpace(t[n])
    ensures LeadingSpace(t) == n
  {
  }

  /** True when `s` has no whitespace at either end (the empty string included). */
  predicate Trimmed(s: string) {
    s == [] || (!IsSpace(s[0]) && !IsSpace(s[|s| - 1]))
  }

  /** Python's `s.strip()`: `s` without its leading and trailing whitespace. */
  function Strip(s: string): (r: string)
    ensures Trimmed(r)
    ensures LeadingSpace(s) + |r| <= |s|
    ensures s[LeadingSpace(s)..LeadingSpace(s) + |r|] == r
    ensures forall i :: LeadingSpace(s) + |r| <= i < |s| ==> IsSpace(s[i])
  {
    var a := LeadingSpace(s);
    if a == |s| then ""
    else
      var b := |s| - TrailingSpace(s);
      s[a..b]
  }

  /** A suffix made of whitespace and preceded by a non-whitespace character
      (or by the start) is the maximal one. */
  lemma TrailingSpaceUnique(t: string, n: nat)
    requires n <= |t|
    requires forall i :: |t| - n <= i < |t| ==> IsSpace(t[i])
    requires n < |t| ==> !IsSpace(t[|t| - n - 1])
    ensures TrailingSpace(t) == n
  {
  }

  /** Stripping whitespace margins around an already trimmed text gives that text back. */
  lemma StripPadded(w1: string, x: string, w2: string)
    requires AllSpace(w1) && AllSpace(w2) && Trimmed(x)
    ensures Strip(w1 + x + w2) == x
  {
    var s := w1 + x + w2;
    if x == [] {
      assert s == w1 + w2;
      LeadingSpaceUnique(s, |s|);
    } else {
      assert forall i :: 0 <= i < |w1| ==> s[i] == w1[i];
      assert s[|w1|] == x[0];
      LeadingSpaceUnique(s, |w1|);
      assert forall i :: |s| - |w2| <= i < |s| ==> s[i] == w2[i - (|s| - |w2|)];
      assert s[|s| - |w2| - 1] == x[|x| - 1];
      TrailingSpaceUnique(s, |w2|);
      assert s[|w1|..|s| - |w2|] == x;
    }
  }

  /** Text without whitespace at either end is its own `strip`. */
  lemma StripTrimmed(s: string)
    requires Trimmed(s)
    ensures Strip(s) == s
  {
    StripPadded([], s, []);
    assert [] + s + [] == s;
  }

  /** Five concatenated pieces, regrouped the ways the proofs need. */
  lemma Regroup(a: string, b: string, c: string, d: string, e: string)
    ensures a + (b + c + d) + e == (a + b) + c + (d + e)
    ensures a + b + c + d + e == a + b + (c + d + e)
  {
  }

  /** Whitespace padding around a text does not change what `strip` leaves. */
  lemma StripAround(w1: string, s: string, w2: string)
    requires AllSpace(w1) && AllSpace(w2)
    ensures Strip(w1 + s + w2) == Strip(s)
  {
    var a := LeadingSpace(s);
    var x := Strip(s);
    var tail := s[a + |x|..];
    var lead := w1 + s[..a];
    var trail := tail + w2;
    assert AllSpace(lead) by {
      assert AllSpace(s[..a]);
    }
    assert AllSpace(trail) by {
      assert AllSpace(tail);
    }
    assert s == s[..a] + x + tail;
    Regroup(w1, s[..a], x, tail, w2);
    StripPadded(lead, x, trail);
  }

  /** Stripping never introduces a character. */
  lemma StripKeepsAbsent(s: string, c: char)
    requires c !in s
    ensures c !in Strip(s)
  {
    var a := LeadingSpace(s);
    var r := Strip(s);
    assert r == s[a..a + |r|];
  }

  /** `strip` is idempotent. */
  lemma StripIdempotent(s: string)
    ensures Strip(Strip(s)) == Strip(s)
  {
    StripPadded([], Strip(s), []);
    assert [] + Strip(s) + [] == Strip(s);
  }

  /** ASCII lower-casing of one character. */
  function LowerChar(c: char): char {
    if 'A' <= c <= 'Z' then (c as int + 32) as char else c
  }

  /** Python's `s.lower()` on ASCII letters. */
  function Lower(s: string): (r: string)
    ensures |r| == |s|
    ensures forall i :: 0 <= i < |s| ==> r[i] == LowerChar(s[i])
  {
    seq(|s|, i requires 0 <= i < |s| => LowerChar(s[i]))
  }

  predicate IsDigit(c: char) {
    '0' <= c <= '9'
  }

  predicate AllDigits(s: string) {
    forall i :: 0 <= i < |s| ==> IsDigit(s[i])
  }

  /** Python's `s.isdigit()`: non-empty and made of decimal digits only. */
  predicate IsDigits(s: string) {
    |s| > 0 && AllDigits(s)
  }

  function DigitValue(c: char): nat
    requires IsDigit(c)
  {
    c as int - '0' as int
  }

  function DigitChar(d: nat): (c: char)
    requires d < 10
    ensures IsDigit(c) && DigitValue(c) == d
  {
    ('0' as int + d) as char
  }

  /** Python's `int(s)` on a string of decimal digits. */
  function DecimalValue(s: string): nat
    requires AllDigits(s)
  {
    if |s| == 0 then 0
    else 10 * DecimalValue(s[..|s| - 1]) + DigitValue(s[|s| - 1])
  }

  /** The decimal spelling of `n` without leading zeros (Python's `str(n)`
      for a non-negative integer); `int` reads it back. */
  function Decimal(n: nat): (r: string)
    ensures IsDigits(r)
    ensures DecimalValue(r) == n
    ensures r[0] == '0' ==> n == 0
  {
    if n < 10 then [DigitChar(n)]
    else
      var p := Decimal(n / 10);
      var r := p + [DigitChar(n % 10)];
      assert r[..|r| - 1] == p;
      r
  }

  /** Leading zeros do not change the value `int` reads (so "007" reads as 7). */
  lemma {:induction false} LeadingZeroIgnored(s: string)
    requires AllDigits(s)
    ensures DecimalValue("0" + s) == DecimalValue(s)
  {
    if |s| == 0 {
    } else {
      var z := "0" + s;
      assert z[..|z| - 1] == "0" + s[..|s| - 1];
      LeadingZeroIgnored(s[..|s| - 1]);
    }
  }
}

=== FILE: validation.dfy ===
/** `Config.verify_values` and `Config.verify_config_is_sane`: the settings
    whose values are restricted to a fixed list, and the error raised for the
    first one that holds anything else. */
module Validation {
  import opened Wrappers
  import opened Values

  /** The assertion failure `verify_values` raises: the offending key, its
      value, the value's type and the values that would have been accepted. */
  datatype ValidationError = ValidationError(key: string, value: Value, typeName: string, allowed: seq<Value>)

  /** Python's `v in xs` on a list: some element is `==` to `v`. */
  function Contains(xs: seq<Value>, v: Value): (b: bool)
    ensures b <==> exists i :: 0 <= i < |xs| && PyEq(v, xs[i])
  {
    if |xs| == 0 then false
    else if PyEq(v, xs[0]) then true
    else
      var b := Contains(xs[1..], v);
      assert forall i :: 1 <= i < |xs| ==> xs[i] == xs[1..][i - 1];
      b
  }

  /** `verify_values(key, allowed)`: a key that is not set is not checked; a key
      that is set must hold one of the allowed values. */
  function VerifyValues(store: map<string, Value>, key: string, allowed: seq<Value>): (r: Outcome<ValidationError>)
    ensures r.Pass? <==> key !in store || exists i :: 0 <= i < |allowed| && PyEq(store[key], allowed[i])
    ensures r.Fail? ==> r.error == ValidationError(key, store[key], TypeName(store[key]), allowed)
  {
    if key !in store then Pass
    else if Contains(allowed, store[key]) then Pass
    else Fail(ValidationError(key, store[key], TypeName(store[key]), allowed))
  }

  /** One line of `verify_config_is_sane`. */
  datatype Check = Check(key: string, allowed: seq<Value>)

  function Run(store: map<string, Value>, c: Check): Outcome<ValidationError> {
    VerifyValues(store, c.key, c.allowed)
  }

  /** The allowed values `[True, False]` of the boolean switches. */
  const Flags: seq<Value> := [Bool(true), Bool(false)]

  /** The boolean switches checked by `verify_config_is_sane`, in order. */
  const FlagKeys: seq<string> := [
    "logreqs", "debugmode", "debugtostdout", "blockhotlinking",
    "disable_banner", "disable_gettor", "disable_tor_redirection"
  ]

  const Transports: seq<Value> := [Str("HTTP"), Str("HTTPS"), Str("BOTH")]
  const Protos: seq<Value> := [Str("http://"), Str("https://")]

  /** The checks of `verify_config_is_sane`, in the order it runs them. */
  const SaneChecks: seq<Check> := [
    Check("transport", Transports),
    Check("logreqs", Flags),
    Check("debugmode", Flags),
    Check("debugtostdout", Flags),
    Check("blockhotlinking", Flags),
    Check("disable_banner", Flags),
    Check("disable_gettor", Flags),
    Check("disable_tor_redirection", Flags),
    Check("proto", Protos)
  ]

  /** Running checks one after the other: the first failure is raised and
      stops the rest. */
  function VerifyAll(store: map<string, Value>, checks: seq<Check>): (r: Outcome<ValidationError>)
    ensures r.Pass? <==> forall i :: 0 <= i < |checks| ==> Run(store, checks[i]).Pass?
    ensures r.Fail? ==>
      exists i :: 0 <= i < |checks| && r == Run(store, checks[i]) && (forall j :: 0 <= j < i ==> Run(store, checks[j]).Pass?)
  {
    if |checks| == 0 then Pass
    else
      match Run(store, checks[0])
      case Fail(e) => Fail(e)
      case Pass =>
        var r := VerifyAll(store, checks[1..]);
        assert forall i :: 1 <= i < |checks| ==> checks[i] == checks[1..][i - 1];
        if r.Fail? then
          var i :| 0 <= i < |checks[1..]| && r == Run(store, checks[1..][i])
            && forall j :: 0 <= j < i ==> Run(store, checks[1..][j]).Pass?;
          assert r == Run(store, checks[i + 1]);
          r
        else r
  }

  /** `verify_config_is_sane`. */
  function VerifyConfigIsSane(store: map<string, Value>): Outcome<ValidationError> {
    VerifyAll(store, SaneChecks)
  }

  /** Because Python's `True == 1` and `False == 0`, a boolean switch accepts
      exactly the booleans and the integers 0 and 1. */
  lemma FlagsAccept(v: Value)
    ensures Contains(Flags, v) <==> v.Bool? || v == Int(0) || v == Int(1)
  {
    if v.Int? && (v.i == 0 || v.i == 1) {
      assert PyEq(v, Flags[1 - v.i]);
    }
  }

  predicate FlagOk(store: map<string, Value>, key: string) {
    key in store ==> var v := store[key]; v.Bool? || v == Int(0) || v == Int(1)
  }

  /** A configuration `verify_config_is_sane` accepts, stated directly: the
      transport is `HTTP`, `HTTPS` or `BOTH`, every switch is a boolean (or 0
      or 1), and the protocol prefix is `http://` or `https://`; settings
      that are not present are not constrained. */
  predicate Sane(store: map<string, Value>) {
    && ("transport" in store ==> store["transport"] in {Str("HTTP"), Str("HTTPS"), Str("BOTH")})
    && FlagOk(store, "logreqs")
    && FlagOk(store, "debugmode")
    && FlagOk(store, "debugtostdout")
    && FlagOk(store, "blockhotlinking")
    && FlagOk(store, "disable_banner")
    && FlagOk(store, "disable_gettor")
    && FlagOk(store, "disable_tor_redirection")
    && ("proto" in store ==> store["proto"] in {Str("http://"), Str("https://")})
  }

  lemma FlagCheck(store: map<string, Value>, key: string)
    ensures Run(store, Check(key, Flags)).Pass? <==> FlagOk(store, key)
  {
    if key in store {
      FlagsAccept(store[key]);
    }
  }

  lemma TransportCheck(store: map<string, Value>)
    ensures Run(store, Check("transport", Transports)).Pass? <==>
      ("transport" in store ==> store["transport"] in {Str("HTTP"), Str("HTTPS"), Str("BOTH")})
  {
    if "transport" in store {
      var v := store["transport"];
      if v in {Str("HTTP"), Str("HTTPS"), Str("BOTH")} {
        assert PyEq(v, v);
      }
    }
  }

  lemma ProtoCheck(store: map<string, Value>)
    ensures Run(store, Check("proto", Protos)).Pass? <==>
      ("proto" in store ==> store["proto"] in {Str("http://"), Str("https://")})
  {
    if "proto" in store {
      var v := store["proto"];
      if v in {Str("http://"), Str("https://")} {
        assert PyEq(v, v);
      }
    }
  }

  /** `verify_config_is_sane` passes exactly on the configurations `Sane`
      describes. */
  lemma VerifyConfigIsSaneCorrect(store: map<string, Value>)
    ensures VerifyConfigIsSane(store).Pass? <==> Sane(store)
  {
    var cs := SaneChecks;
    TransportCheck(store);
    ProtoCheck(store);
    forall i | 1 <= i < 8
      ensures Run(store, cs[i]).Pass? <==> FlagOk(store, FlagKeys[i - 1])
    {
      assert cs[i] == Check(FlagKeys[i - 1], Flags);
      FlagCheck(store, FlagKeys[i - 1]);
    }
    if forall i :: 0 <= i < |cs| ==> Run(store, cs[i]).Pass? {
      assert Run(store, cs[0]).Pass? && Run(store, cs[1]).Pass? && Run(store, cs[2]).Pass?;
      assert Run(store, cs[3]).Pass? && Run(store, cs[4]).Pass? && Run(store, cs[5]).Pass?;
      assert Run(store, cs[6]).Pass? && Run(store, cs[7]).Pass? && Run(store, cs[8]).Pass?;
    }
    if Sane(store) {
      forall i | 0 <= i < |cs|
        ensures Run(store, cs[i]).Pass?
      {
        if i == 0 || i == 8 {
        } else if i == 1 {
        } else if i == 2 {
        } else if i == 3 {
        } else if i == 4 {
        } else if i == 5 {
        } else if i == 6 {
        } else {
          assert i == 7;
        }
      }
    }
  }

  /** Only the keys the checks name matter: stores that agree on them give the
      same verdict and the same error. */
  lemma {:induction false} VerifyAllLocal(s1: map<string, Value>, s2: map<string, Value>, checks: seq<Check>)
    requires forall i :: 0 <= i < |checks| ==>
      (checks[i].key in s1 <==> checks[i].key in s2) &&
      (checks[i].key in s1 ==> s1[checks[i].key] == s2[checks[i].key])
    ensures VerifyAll(s1, checks) == VerifyAll(s2, checks)
  {
    if |checks| > 0 {
      assert Run(s1, checks[0]) == Run(s2, checks[0]);
      VerifyAllLocal(s1, s2, checks[1..]);
    }
  }
}

=== FILE: values.dfy ===
/** The values a configuration setting can hold once coerced, and the few
    pieces of Python's object semantics the configuration code relies on. */
module Values {

  /** A setting's value: Python `int`, `bool`, `None`, `str` or a list of `str`. */
  datatype Value =
    | Int(i: int)
    | Bool(b: bool)
    | Null
    | Str(s: string)
    | List(items: seq<string>)

  /** Python's `bool` is a subclass of `int`: `True` counts as 1 and `False` as 0. */
  function BoolAsInt(b: bool): int {
    if b then 1 else 0
  }

  /** Python's `==` between two values. */
  predicate PyEq(a: Value, b: Value) {
    match (a, b)
    case (Int(x), Int(y)) => x == y
    case (Int(x), Bool(y)) => x == BoolAsInt(y)
    case (Bool(x), Int(y)) => BoolAsInt(x) == y
    case (Bool(x), Bool(y)) => x == y
    case (Null, Null) => true
    case (Str(x), Str(y)) => x == y
    case (List(x), List(y)) => x == y
    case _ => false
  }

  /** Python's `==` is structural equality except that it also relates a
      `bool` to the `int` 0 or 1. */
  lemma PyEqCharacterization(a: Value, b: Value)
    ensures PyEq(a, b) <==>
      || a == b
      || (a.Int? && b.Bool? && a.i == BoolAsInt(b.b))
      || (a.Bool? && b.Int? && BoolAsInt(a.b) == b.i)
  {
  }

  /** Python truthiness: zero, `False`, `None`, the empty string and the empty list are false. */
  predicate Truthy(v: Value) {
    match v
    case Int(i) => i != 0
    case Bool(b) => b
    case Null => false
    case Str(s) => s != ""
    case List(xs) => xs != []
  }

  /** What `type(v)` prints. */
  function TypeName(v: Value): string {
    match v
    case Int(_) => "<class 'int'>"
    case Bool(_) => "<class 'bool'>"
    case Null => "<class 'NoneType'>"
    case Str(_) => "<class 'str'>"
    case List(_) => "<class 'list'>"
  }
}

=== FILE: wrappers.dfy ===
/** Failure-carrying datatypes shared by the configuration model. */
module Wrappers {

  /** A value that may be missing: the configuration file's "option not present". */
  datatype Option<+T> = None | Some(value: T)

  /** The outcome of an operation that either produces a value or raises an error. */
  datatype Result<+R, +E> = Success(value: R) | Failure(error: E)

  /** The outcome of a check that either passes or raises an error. */
  datatype Outcome<+E> = Pass | Fail(error: E)
}
